=== FILE: README.md ===
# Journal-entry sample analysis, modelled in Dafny

Two scripts profile an Excel workbook of journal-entry samples:

- `scripts/benford_analysis.py` compares the leading digits of a numeric column with Benford's law.
- `scripts/analyze_je_samples.py` writes a per-column profile.

Both scripts work in the same stages:

1. Decode one worksheet of the `.xlsx` archive into a grid of optional text cells. Cell references such as `AB12` give column positions, shared-string cells are looked up in a table, and each row is laid out by Python dict and list rules.
2. Name the columns from the header row. Blank headers become `Column<n>`.
3. Pad or truncate every data row to the header width.
4. Project the rows into per-header lists.
5. Compute the reports: the leading-digit distribution, or the missing counts, date ranges and numeric statistics.

This project models those stages as pure Dafny functions over immutable data and proves their contracts. Modules follow the stages:

| module | file | what it models |
|---|---|---|
| `Wrappers`, `Errors` | wrappers.dfy | `Option`, `Result`, and the exceptions the scripts raise, as error values |
| `Decimal` | decimal.dfy | decimal numerals: `f"{n}"` and digit strings |
| `ColumnRef` | column_ref.dfy | `column_index` and its inverse, bijective base-26 column letters |
| `SheetGrid` | sheet_grid.dfy | the cell loop and row layout of `parse_sheet` |
| `Columns` | columns.dfy | header names, row normalisation, the `column_values` projection |
| `Inference` | inference.dfy | numeric coercion, `parse_date`, the 80% date-column rule |
| `Stats` | stats.dfy | `numeric_stats` over exact reals |
| `Benford` | benford.dfy | `leading_digit`, the observed and expected distribution, `pick_numeric_column`, the Benford `main` |
| `SamplesSummary` | samples_summary.dfy | the profile built by `main` of the summary script |

External library behaviour is passed in as function-typed parameters, so every contract holds for any implementation:

- Python's `float()` is `FloatParser`, a `string -> Option<real>`.
- `datetime.strptime` for one format is `DateMatcher`.
- `math.log10` is `Log10`.

The archive is given as the decoded XML content: a `Workbook` holding the shared-string entries and each worksheet's cell records.

## Behaviour worth knowing

- **Duplicate headers.** Duplicate header names collapse into one key whose list receives the cells of every column with that name, interleaved row by row; no column's cells are discarded. `Columns.RawColumnLength` proves the list is as long as the data rows times the name's multiplicity, and `Columns.RawColumnInterleaved` that row `i` fills its `i`-th block of that many slots with its cells under the name, left to right. `SamplesSummary.MissingBound` carries this into the missing counts.
- **Explicit empty column.** When `--column` names a header whose column holds no number, the code does not fail with "not found". The header is a key of `column_values`, so the failure is "no valid leading digits" (`EmptySample`).
- **Shared-string indices.** An index past the end of the table raises. A negative index wraps around, as Python list indexing does. Both are modelled through `SheetGrid.PyIndex`; `SheetGrid.SharedStringWraps` states the wrap for a cell whose text is `-n`.
- **References without letters.** `column_index` returns −1 for such a reference. `row_values[-1] = value` then writes into the last slot of the row, or raises `IndexError` when the row is otherwise empty. `SheetGrid.MaterializeOutcome` states this for every row and `SheetGrid.LetterlessReferenceExamples` exhibits both outcomes.
- **Missing worksheet.** The summary script has no explicit check for a missing worksheet; `archive.read` raises instead. Both scripts are modelled as failing with `MissingSheet`.

## Model

| member | source | states |
|---|---|---|
| ColumnRef.ColumnIndex | scripts/benford_analysis.py:13-18 | the index is at least −1, and it is −1 exactly when the reference contains no letter |
| ColumnRef.ColumnIndexOfColumnLetters | scripts/benford_analysis.py:13-18 | decoding the bijective base-26 letters of any index n ≥ 0 gives n back |
| ColumnRef.ColumnLettersOfColumnIndex | scripts/benford_analysis.py:13-18 | every non-empty upper-case letter string is the letter form of its own index (the other round trip) |
| ColumnRef.ColumnIndexInjective | scripts/benford_analysis.py:13-18 | distinct column-letter strings decode to distinct columns |
| ColumnRef.ColumnIndexIgnoresNonLetters | scripts/benford_analysis.py:14 | only the letters of a reference matter: the row digits are filtered out wherever they occur |
| ColumnRef.ColumnIndexCaseInsensitive | scripts/benford_analysis.py:14-17 | upper-casing a reference never changes its column |
| ColumnRef.ColumnIndexOfA1Reference | scripts/benford_analysis.py:13-18 | an A1-style reference (column letters followed by a row number) decodes to its column, whatever the row |
| ColumnRef.ColumnIndexExamplesMore | scripts/benford_analysis.py:13-18 | the references 7 and 1 give −1, and C1 gives 2 |
| ColumnRef.ColumnIndexExamples | scripts/analyze_je_samples.py:13-18 | A1→0, Z9→25, AA3→26, AZ10→51, BA2→52, ba2→52, and a digits-only reference gives −1 |
| Decimal.NatToStringInjective | scripts/benford_analysis.py:193 | distinct positions print as distinct decimal numerals |
| Decimal.DigitsValueOfNatToString | scripts/benford_analysis.py:193 | reading back the printed decimal numeral of n gives n |
| SheetGrid.ParseInt | scripts/benford_analysis.py:46 | `int()` succeeds exactly on a non-empty digit string or a sign followed by one; the value is the decimal value, negated after `-`; any other text, including the empty string, fails |
| SheetGrid.ParseIntOfNegated | scripts/benford_analysis.py:46 | a minus sign before a printed natural number parses to its negation |
| SheetGrid.ParseIntOfNatToString | scripts/benford_analysis.py:46 | `int()` of a printed natural number gives that number |
| SheetGrid.PyIndex | scripts/benford_analysis.py:46 | list indexing succeeds exactly for −len ≤ i < len, gives the i-th element for non-negative i and the element len + i from the end for negative i |
| SheetGrid.CellValue | scripts/benford_analysis.py:44-46 | a non-shared cell, or a shared cell without text, yields its own text; a shared cell fails exactly when its text is not an integer or is out of the table's range |
| SheetGrid.SharedStringDereference | scripts/benford_analysis.py:45-46 | a shared-string cell whose text is the numeral n < table size yields table entry n |
| SheetGrid.SharedStringLookup | scripts/benford_analysis.py:45-46 | a successful shared-string lookup yields exactly the entry Python's `shared_strings[int(value)]` selects, negative indices included |
| SheetGrid.SharedStringWraps | scripts/benford_analysis.py:45-46 | a shared-string cell whose text is `-n`, with 1 ≤ n ≤ table size, yields the n-th entry from the end |
| SheetGrid.KeptCells | scripts/benford_analysis.py:40-43 | only cells with a non-empty reference and a value element survive |
| SheetGrid.KeptCellsAppend | scripts/benford_analysis.py:39-43 | filtering a concatenation filters each part, so kept cells stay in document order |
| SheetGrid.KeptCellsOfCell | scripts/benford_analysis.py:40-43 | a single cell survives exactly when it has a non-empty reference and a value element |
| SheetGrid.KeptCellsMembers | scripts/benford_analysis.py:39-43 | a cell is among the kept cells exactly when it is in the row and is kept |
| SheetGrid.SkippedCellsIgnored | scripts/benford_analysis.py:40-43 | skipped cells neither write nor fail: the row is the same as for the kept cells alone |
| SheetGrid.KeptCellsIdempotent | scripts/benford_analysis.py:40-43 | filtering kept cells a second time changes nothing |
| SheetGrid.Writes | scripts/benford_analysis.py:39-47 | one assignment per kept cell, at `column_index` of its reference with its cell value, in document order; the loop fails exactly when some kept cell's lookup fails |
| SheetGrid.BuildDictFacts | scripts/benford_analysis.py:38-47 | the dict after the loop has distinct keys, exactly the written columns, and each maps to the value written last |
| SheetGrid.MaxKey | scripts/benford_analysis.py:48 | the maximum bounds every key and is attained; an empty dict gives −1 |
| SheetGrid.Fill | scripts/benford_analysis.py:49-51 | filling keeps the row length and can only fail with an index error |
| SheetGrid.FillOverlay | scripts/benford_analysis.py:49-51 | with distinct in-range keys, filling succeeds and sets exactly the dict's positions |
| SheetGrid.MaterializeMeetsSpec | scripts/benford_analysis.py:48-51 | for non-negative columns the built row equals the reference layout: width max + 1, last write per slot, `None` elsewhere |
| SheetGrid.RowSpecLength | scripts/benford_analysis.py:48-49 | the row is empty without writes, otherwise as wide as the largest written column plus one, and its last slot was written |
| SheetGrid.RowSpecCell | scripts/benford_analysis.py:47-51 | a slot holds the value of its latest write, or `None` when nothing was written there |
| SheetGrid.LastWriteIsLatest | scripts/benford_analysis.py:47 | a later assignment to the same column overrides an earlier one |
| SheetGrid.AssembleRow | scripts/benford_analysis.py:37-52 | a row fails when a lookup fails; otherwise it fails exactly when it has writes and all of them are to column −1, and is as wide as the largest column plus one; with all columns non-negative it equals the reference layout |
| SheetGrid.MaterializeOutcome | scripts/benford_analysis.py:48-51 | with every column at least −1, building the row fails exactly when there are writes and the largest column is −1; a built row is the largest column plus one wide |
| SheetGrid.LetterlessReferenceExamples | scripts/benford_analysis.py:47-51 | a lone letterless reference fails with index −1; after a write to C1 it overwrites the last slot |
| SheetGrid.AssembleRows | scripts/benford_analysis.py:36-53 | one row per `<row>`, each the assembled row; failure exactly when some row fails |
| SheetGrid.DecodeSheet | scripts/benford_analysis.py:21-53 | the worksheet is missing exactly when decoding fails with `MissingSheet`; a present worksheet fails exactly when one of its rows fails to assemble; otherwise the grid has one assembled row per row element |
| Columns.HeaderNamesDistinct | scripts/benford_analysis.py:193 | the header names are pairwise distinct exactly when no two header texts are equal and no text equals the `Column<n>` name of a blank position |
| Columns.SynthNamesDistinct | scripts/benford_analysis.py:193 | synthesized names `Column<n>` of distinct positions differ |
| Columns.HeaderNamesOfBlankRow | scripts/benford_analysis.py:193 | a header row without any text still gets one distinct name per position |
| Columns.NormalizeRow | scripts/benford_analysis.py:197-200 | the row gets exactly the header width, keeps its cells below that width and is padded with `None` |
| Columns.NormalizeRows | scripts/benford_analysis.py:197-200 | every data row is kept, in order; each comes out exactly as wide as the header, its cells below that width unchanged and the missing ones filled with `None` |
| Columns.Project | scripts/benford_analysis.py:202-207 | the projection's keys are exactly the header names |
| Columns.ProjectDistinct | scripts/benford_analysis.py:202-207 | with distinct headers, a header's list is its column's contributions in row order |
| Columns.RawColumnsDistinct | scripts/analyze_je_samples.py:109-114 | with distinct headers, a header's list has one entry per data row: that row's cell in the column |
| Columns.AppendRowLength | scripts/analyze_je_samples.py:111-114 | one row adds to a name's list once per column carrying the name |
| Columns.RawColumnLength | scripts/analyze_je_samples.py:109-114 | a name's list is as long as the data rows times the name's multiplicity among the headers |
| Columns.RawColumnInterleaved | scripts/analyze_je_samples.py:109-114 | under duplicate names the list is row-major: the block of row i holds that row's cells under every column with the name, left to right |
| Inference.Coerce | scripts/benford_analysis.py:63-69 | `None` and the empty string never coerce to a number |
| Inference.CoercedValues | scripts/analyze_je_samples.py:138-145 | at most one number per value |
| Inference.CoercedValuesAppend | scripts/analyze_je_samples.py:138-145 | coercing a concatenation concatenates the parts' numbers, so the numbers keep row order |
| Inference.CoercedValuesOfCell | scripts/analyze_je_samples.py:140-145 | a single cell contributes nothing when blank, and otherwise `float()`'s number if it has one |
| Inference.CoercedValuesMembers | scripts/analyze_je_samples.py:138-145 | a number is collected exactly when some value of the column coerces to it |
| Inference.CoercedValuesEmpty | scripts/analyze_je_samples.py:136-148 | a column's number list is non-empty exactly when some value coerces |
| Inference.DateLtTransitive | scripts/analyze_je_samples.py:131-132 | the datetime order is transitive |
| Inference.DateLtTotal | scripts/analyze_je_samples.py:131-132 | any two distinct datetimes are ordered |
| Inference.FirstMatch | scripts/analyze_je_samples.py:54-68 | the result comes from the first format in list order that matches, and is `None` when none matches |
| Inference.ParseDatePrefersEarlierFormat | scripts/analyze_je_samples.py:54-68 | a value that parses with the first format, `%Y-%m-%d`, is read with it, whatever the later formats would give |
| Inference.ParseDate | scripts/analyze_je_samples.py:54-68 | no date comes back exactly when every one of the six formats fails |
| Inference.ParsedDatesBound | scripts/analyze_je_samples.py:119-126 | at most one date per non-blank value is collected |
| Inference.MinDate | scripts/analyze_je_samples.py:131 | the minimum is one of the dates and precedes or equals all of them |
| Inference.MaxDate | scripts/analyze_je_samples.py:132 | the maximum is one of the dates and follows or equals all of them |
| Inference.RatioThreshold | scripts/analyze_je_samples.py:128-129 | for 1 ≤ parsed ≤ non-blank, the ratio reaches 0.8 exactly when 5·parsed ≥ 4·non-blank, and never exceeds 1 |
| Inference.RangeOf | scripts/analyze_je_samples.py:130-132 | the reported range starts no later than it ends, both ends are parsed dates, and it covers every parsed date |
| Inference.DateColumn | scripts/analyze_je_samples.py:118-134 | a column is a date column exactly when some value parses and parsed ≥ 80% of non-blank values; its range brackets every parsed date, and its ratio is the number of parsed dates over the number of non-blank values (at least one), which lies in [0.8, 1] |
| Inference.NonBlankCountAppend | scripts/analyze_je_samples.py:128 | non-blank values are counted independently in each part of a concatenation |
| Inference.ParsedDatesAppend | scripts/analyze_je_samples.py:119-126 | date collection distributes over concatenation of columns |
| DateRatioExamples.EightOfTenIsDateColumn | scripts/analyze_je_samples.py:127-134 | a column of 8 date values and 2 non-dates is a date column; 7 and 3 is not |
| Stats.Mean | scripts/analyze_je_samples.py:81 | mean × count = sum, and the mean lies between the minimum and the maximum |
| Stats.NumericStats | scripts/analyze_je_samples.py:71-90 | count 0 ⇔ all fields absent; otherwise min ≤ mean ≤ max, min and max are attained values bounding every value, variance × (count − 1) = sum of squared deviations for count ≥ 2, variance 0 for count 1, never negative |
| Stats.VarianceZeroIffConstant | scripts/analyze_je_samples.py:82 | for count ≥ 2 the variance is zero exactly when all values are equal |
| Stats.StatsExample | scripts/analyze_je_samples.py:71-90 | [2, 4, 4, 4, 5, 5, 7, 9] gives count 8, mean 5, variance 32/7, min 2, max 9 |
| Stats.StatsEdgeCases | scripts/analyze_je_samples.py:73-82 | the empty list reports every field absent, and a single value has variance 0 with min = mean = max |
| Benford.ScaleUp | scripts/benford_analysis.py:76-77 | a positive magnitude below 1 is brought into [1, 10); one already ≥ 1 is unchanged |
| Benford.ScaleDown | scripts/benford_analysis.py:78-79 | a magnitude ≥ 1 is brought into [1, 10); one below 10 is unchanged |
| Benford.LeadingDigit | scripts/benford_analysis.py:72-81 | zero has no leading digit; every other value has one in 1..9 |
| Benford.LeadingDigitSound | scripts/benford_analysis.py:72-81 | the returned digit d satisfies the reference definition: some power-of-ten rescaling of the magnitude lies in [d, d + 1) |
| Benford.LeadingDigitUnique | scripts/benford_analysis.py:72-81 | at most one digit satisfies the reference definition |
| Benford.LeadingDigitComplete | scripts/benford_analysis.py:72-81 | any digit satisfying the reference definition is the one returned |
| Benford.LeadingDigitInvariance | scripts/benford_analysis.py:72-81 | the leading digit ignores the sign and is unchanged by multiplying or dividing by ten |
| Benford.LeadingDigitExamples | scripts/benford_analysis.py:72-81 | 0.0034 → 3, 340 → 3, 7 → 7, −0.5 → 5, 0 → none |
| Benford.NonZeroCountZero | scripts/benford_analysis.py:217-220 | no value is counted exactly when all values are zero |
| Benford.LeadingDigits | scripts/benford_analysis.py:217 | every collected digit is in 1..9, one per non-zero value |
| Benford.LeadingDigitsAppend | scripts/benford_analysis.py:217 | the digits of a concatenation are the digits of each part, concatenated, so order follows the values |
| Benford.LeadingDigitsOfValue | scripts/benford_analysis.py:217 | a single value contributes its own leading digit, and zero contributes nothing |
| Benford.LeadingDigitsCount | scripts/benford_analysis.py:217-223 | the count of digit d among the collected digits equals the number of positions whose value has leading digit d |
| Benford.ObservedCountsTotal | scripts/benford_analysis.py:222-223 | the nine per-digit counts add up to the number of leading digits |
| Benford.ObservedShares | scripts/benford_analysis.py:225 | each observed share lies in [0, 1], and share × total gives the count back |
| Benford.ExpectedShares | scripts/benford_analysis.py:226 | expected count / total is exactly Benford's log10(1 + 1/d) |
| Benford.RecordOf | scripts/benford_analysis.py:222-226 | total = number of digits; entry d − 1 counts digit d; the counts sum to the total |
| Benford.RecordShares | scripts/benford_analysis.py:222-226 | observed shares lie in [0, 1] and reproduce the counts; the expected columns are total × log10(1 + 1/d) and log10(1 + 1/d) |
| Benford.Analyze | scripts/benford_analysis.py:217-226 | fails with an empty sample exactly when every value is zero; otherwise the total is the number of non-zero values, and the count for each digit d is the number of values whose leading digit is d |
| Benford.ExpectedIndependentOfObserved | scripts/benford_analysis.py:84-85 | the expected columns depend only on the sample size, never on which digits were seen |
| Benford.PickNumericColumn | scripts/benford_analysis.py:174-178 | returns the first header in header order with at least `min_count` numbers; fails exactly when no header qualifies |
| Benford.PickNumericColumnExample | scripts/benford_analysis.py:174-178 | column sizes [3, 15, 2] with threshold 10 pick the second column, and with threshold 20 none |
| Benford.NumericColumnsAreCoercedRawColumns | scripts/benford_analysis.py:202-207 | with distinct headers, a header's numbers are the coercible cells of its raw column, in row order |
| Benford.GridNumericColumns | scripts/benford_analysis.py:193-207 | the keys of `column_values` are exactly the header names |
| Benford.BenfordFromGrid | scripts/benford_analysis.py:189-226 | an empty grid fails with `EmptyGrid` and only then; the report names a header and its record is the analysis of exactly that header's numbers; an explicit non-header column fails with `ColumnNotFound`; an explicit header fails with `EmptySample` exactly when all its numbers are zero; without a column the report names `pick_numeric_column`'s choice, no eligible column gives `NoEligibleColumn`, and the choice fails, with `EmptySample`, exactly when all its numbers are zero |
| Benford.BenfordRun | scripts/benford_analysis.py:189-191 | a missing worksheet fails with `MissingSheet`; any decoding failure is returned as is; a decoded grid gives exactly what the grid pipeline gives |
| SamplesSummary.MissingCount | scripts/analyze_je_samples.py:116 | missing plus non-blank values make up the column |
| SamplesSummary.MissingCountZero | scripts/analyze_je_samples.py:116 | nothing is missing exactly when every value is non-blank |
| SamplesSummary.MissingMap | scripts/analyze_je_samples.py:116 | one missing count per projected name, never more than that name's list length |
| SamplesSummary.DateMap | scripts/analyze_je_samples.py:118-134 | every reported date range starts no later than it ends and has a ratio in [0.8, 1] |
| SamplesSummary.NumericMap | scripts/analyze_je_samples.py:136-148 | only columns with at least one number are summarised, and each summary has a mean |
| SamplesSummary.Summarize | scripts/analyze_je_samples.py:93-158 | fails with `EmptyGrid` exactly for an empty grid; the row count excludes the header; there is one column and one missing count per header name; date and numeric entries are a subset of those names |
| SamplesSummary.SummarizeWorkbook | scripts/analyze_je_samples.py:95-97 | the script decodes the fixed member `xl/worksheets/sheet1.xml`; its absence is a `MissingSheet` failure; any decoding failure is returned as is; a decoded grid gives exactly the profile of that grid |
| SamplesSummary.RawColumnIsCells | scripts/analyze_je_samples.py:103-114 | with distinct headers, a header's raw list is the j-th cell of every data row, `None` where the row is short |
| SamplesSummary.SummaryColumn | scripts/analyze_je_samples.py:109-148 | with distinct headers, each name's missing count, date range and statistics are exactly those of the cells under it; it is a date column, or numeric, exactly when those cells qualify |
| SamplesSummary.MissingBound | scripts/analyze_je_samples.py:109-116 | a name's missing count is at most the row count times the name's multiplicity |
| SamplesSummary.SummaryExample | scripts/analyze_je_samples.py:99-116 | a sheet with header [id, blank] and rows [1] and [blank, x] reports 2 rows, columns [id, Column2] and one missing value in each |

## Left out

- The zip container and XML parsing are left out. This covers namespaces, `findall`, the text of `<t>` and `<v>` elements, and the member list. The model starts from the decoded `Workbook`. Both scripts' `ZipFile` handling and `ET.fromstring` are outside the model.
- File-system checks, the default-file candidates (`resolve_default_file`), the command-line parser (`build_parser`) and `OUTPUT_DIR` are left out. Their values enter as parameters.
- Output writing is left out: the JSON, CSV and Markdown files, the SVG chart (`write_svg_chart`), `round(…, 4)`, `isoformat()`, and the top-10 missing-value listing of the Markdown report. They format results the model already computes.
- Floating point is modelled as exact reals, with no NaN or infinity. For example, `leading_digit(float('inf'))` never returns, and the model has no such input.
- Benford.LeadingDigit: computes over exact reals. Binary rounding of repeated `*= 10` and `/= 10` can in rare cases move a float's digit across a boundary, and that is not modelled.
- Inference.RatioThreshold: compares the exact ratio. Python's float division agrees for any realistic column length, because a ratio below 0.8 is at least 1/(5·n) away from it.
- Stats.NumericStats: reports the variance, not `std`. The standard deviation is `math.sqrt` of the reported variance, and square roots are not modelled.
- Python's `float()`, `datetime.strptime` and `math.log10` are abstract parameters. Their own parsing rules, including `float()` ignoring surrounding whitespace and the `.strip()` before it, belong to that parameter.
- `str.isalpha` and `str.upper` are restricted to ASCII letters. Non-ASCII letters in a cell reference are not modelled.
- SheetGrid.ParseInt: accepts an optional sign followed by ASCII digits. Python's `int()` also accepts surrounding whitespace, underscores between digits and non-ASCII digits; these are not modelled.
- Dictionary iteration order of the reports is not modelled. The model's maps are unordered; header order is kept in the `columns` sequence.

=== FILE: benford.dfy ===
/**
 * The Benford stage of `benford_analysis.py`: leading decimal digits over exact
 * reals, the observed and expected per-digit distribution, the choice of the
 * column to analyse, and the script's pipeline from decoded grid to record.
 */
module Benford {
  import opened Wrappers
  import opened Errors
  import opened SheetGrid
  import opened Columns
  import opened Inference

  // ---------------------------------------------------------------------------
  // Leading digit

  function Abs(x: real): real {
    if x < 0.0 then -x else x
  }

  /** `v` times ten to the power `k`, by repeated multiplication or division by ten. */
  function Shift(v: real, k: int): real
    decreases if k >= 0 then k else -k
  {
    if k == 0 then v
    else if k > 0 then Shift(v * 10.0, k - 1)
    else Shift(v / 10.0, k + 1)
  }

  lemma ReciprocalShrinks(m: real)
    requires 0.0 < m < 1.0
    ensures 0 <= (1.0 / (m * 10.0)).Floor < (1.0 / m).Floor
  {
    var x := 1.0 / m;
    assert x * m == 1.0;
    assert x > 1.0;
    assert 1.0 / (m * 10.0) == x / 10.0;
    if x < 10.0 {
      assert (x / 10.0).Floor == 0;
    } else {
      assert (x / 10.0).Floor as real <= x / 10.0 <= x - 9.0;
    }
  }

  lemma QuotientShrinks(m: real)
    requires m >= 10.0
    ensures (m / 10.0).Floor < m.Floor
  {
    assert (m / 10.0).Floor as real <= m / 10.0 <= m - 9.0;
  }

  /** `while magnitude < 1: magnitude *= 10`. */
  function ScaleUp(m: real): (r: real)
    requires m > 0.0
    ensures r >= 1.0
    ensures m < 1.0 ==> r < 10.0
    ensures m >= 1.0 ==> r == m
    decreases (1.0 / m).Floor
  {
    if m < 1.0 then
      ReciprocalShrinks(m);
      ScaleUp(m * 10.0)
    else m
  }

  /** `while magnitude >= 10: magnitude /= 10`. */
  function ScaleDown(m: real): (r: real)
    requires m >= 1.0
    ensures 1.0 <= r < 10.0
    ensures m < 10.0 ==> r == m
    decreases m.Floor
  {
    if m >= 10.0 then
      QuotientShrinks(m);
      ScaleDown(m / 10.0)
    else m
  }

  /** The magnitude of a non-zero value brought into [1, 10). */
  function Mantissa(x: real): (r: real)
    requires x != 0.0
    ensures 1.0 <= r < 10.0
  {
    ScaleDown(ScaleUp(Abs(x)))
  }

  /** `leading_digit(value)` over exact reals: `None` for zero, else the first significant digit. */
  function LeadingDigit(x: real): (r: Option<int>)
    ensures r.None? <==> x == 0.0
    ensures r.Some? ==> 1 <= r.value <= 9
  {
    if x == 0.0 then None
    else
      var digit := Mantissa(x).Floor;
      if 1 <= digit <= 9 then Some(digit) else None
  }

  /**
   * The reference definition: `d` is the leading digit of `x` when some power-of-ten
   * rescaling of |x| lies in [d, d + 1).
   */
  ghost predicate IsLeadingDigit(x: real, d: int) {
    1 <= d <= 9 && exists k: int :: d as real <= Shift(Abs(x), k) < (d + 1) as real
  }

  lemma ShiftTimesTen(v: real, k: int)
    ensures Shift(v * 10.0, k) == Shift(v, k + 1)
  {
    if k < 0 {
      assert v * 10.0 / 10.0 == v;
    }
  }

  lemma ShiftOverTen(v: real, k: int)
    ensures Shift(v / 10.0, k) == Shift(v, k - 1)
  {
    if k > 0 {
      assert v / 10.0 * 10.0 == v;
    }
  }

  lemma {:induction false} ShiftCompose(v: real, i: int, j: int)
    ensures Shift(Shift(v, i), j) == Shift(v, i + j)
    decreases if i >= 0 then i else -i
  {
    if i > 0 {
      ShiftCompose(v * 10.0, i - 1, j);
      ShiftTimesTen(v, i - 1 + j);
    } else if i < 0 {
      ShiftCompose(v / 10.0, i + 1, j);
      ShiftOverTen(v, i + 1 + j);
    }
  }

  lemma {:induction false} ShiftGrows(v: real, j: int)
    requires v >= 0.0 && j >= 1
    ensures Shift(v, j) >= 10.0 * v
    decreases j
  {
    if j > 1 {
      ShiftGrows(v * 10.0, j - 1);
    }
  }

  /** A value of at least one that stays below ten under a shift was not shifted up. */
  lemma ShiftStaysInDecade(v: real, j: int)
    requires v >= 1.0 && Shift(v, j) < 10.0
    ensures j <= 0
  {
    if j >= 1 {
      ShiftGrows(v, j);
    }
  }

  lemma {:induction false} ScaleUpExponent(m: real) returns (p: nat)
    requires m > 0.0
    ensures ScaleUp(m) == Shift(m, p)
    decreases (1.0 / m).Floor
  {
    if m < 1.0 {
      ReciprocalShrinks(m);
      var p' := ScaleUpExponent(m * 10.0);
      ShiftTimesTen(m, p');
      p := p' + 1;
    } else {
      p := 0;
    }
  }

  lemma {:induction false} ScaleDownExponent(m: real) returns (q: nat)
    requires m >= 1.0
    ensures ScaleDown(m) == Shift(m, -(q as int))
    decreases m.Floor
  {
    if m >= 10.0 {
      QuotientShrinks(m);
      var q' := ScaleDownExponent(m / 10.0);
      ShiftOverTen(m, -(q' as int));
      q := q' + 1;
    } else {
      q := 0;
    }
  }

  /** The digit `leading_digit` returns meets the reference definition. */
  lemma LeadingDigitSound(x: real)
    requires x != 0.0
    ensures IsLeadingDigit(x, LeadingDigit(x).value)
  {
    var p := ScaleUpExponent(Abs(x));
    var q := ScaleDownExponent(ScaleUp(Abs(x)));
    ShiftCompose(Abs(x), p, -(q as int));
    var d := LeadingDigit(x).value;
    assert d as real <= Shift(Abs(x), p as int - q as int) < (d + 1) as real;
  }

  /** A value has at most one leading digit under the reference definition. */
  lemma LeadingDigitUnique(x: real, d: int, e: int)
    requires IsLeadingDigit(x, d) && IsLeadingDigit(x, e)
    ensures d == e
  {
    var a := Abs(x);
    var k1 :| d as real <= Shift(a, k1) < (d + 1) as real;
    var k2 :| e as real <= Shift(a, k2) < (e + 1) as real;
    // Each rescaling lies in [1, 10), so neither is a shift of the other by a positive power.
    ShiftCompose(a, k1, k2 - k1);
    ShiftCompose(a, k2, k1 - k2);
    ShiftStaysInDecade(Shift(a, k1), k2 - k1);
    ShiftStaysInDecade(Shift(a, k2), k1 - k2);
    assert k1 == k2;
  }

  /** ... so the reference definition pins down `leading_digit` completely. */
  lemma LeadingDigitComplete(x: real, d: int)
    requires IsLeadingDigit(x, d)
    ensures LeadingDigit(x) == Some(d)
  {
    var k :| d as real <= Shift(Abs(x), k) < (d + 1) as real;
    assert Abs(x) != 0.0 by {
      ShiftOfZero(k);
    }
    LeadingDigitSound(x);
    LeadingDigitUnique(x, d, LeadingDigit(x).value);
  }

  lemma {:induction false} ShiftOfZero(k: int)
    ensures Shift(0.0, k) == 0.0
    decreases if k >= 0 then k else -k
  {
    if k > 0 {
      ShiftOfZero(k - 1);
    } else if k < 0 {
      ShiftOfZero(k + 1);
    }
  }

  /** The leading digit ignores the sign and is unchanged by scaling by ten either way. */
  lemma LeadingDigitInvariance(x: real)
    ensures LeadingDigit(-x) == LeadingDigit(x)
    ensures LeadingDigit(10.0 * x) == LeadingDigit(x)
    ensures LeadingDigit(x / 10.0) == LeadingDigit(x)
  {
    assert Abs(-x) == Abs(x);
    if x != 0.0 {
      var d := LeadingDigit(x).value;
      LeadingDigitSound(x);
      var k :| d as real <= Shift(Abs(x), k) < (d + 1) as real;
      assert Abs(10.0 * x) == Abs(x) * 10.0;
      ShiftTimesTen(Abs(x), k - 1);
      assert d as real <= Shift(Abs(10.0 * x), k - 1) < (d + 1) as real;
      LeadingDigitComplete(10.0 * x, d);
      assert Abs(x / 10.0) == Abs(x) / 10.0;
      ShiftOverTen(Abs(x), k + 1);
      assert d as real <= Shift(Abs(x / 10.0), k + 1) < (d + 1) as real;
      LeadingDigitComplete(x / 10.0, d);
    }
  }

  /** 0.0034 -> 3, 340 -> 3, 7 -> 7, -0.5 -> 5, and 0 has no leading digit. */
  lemma LeadingDigitExamples()
    ensures LeadingDigit(0.0034) == Some(3)
    ensures LeadingDigit(340.0) == Some(3)
    ensures LeadingDigit(7.0) == Some(7)
    ensures LeadingDigit(-0.5) == Some(5)
    ensures LeadingDigit(0.0) == None
  {
    assert Abs(0.0034) == 0.0034 && Abs(340.0) == 340.0 && Abs(7.0) == 7.0;
    assert Shift(0.0034, 3) == 3.4 by {
      assert Shift(0.34, 1) == Shift(3.4, 0);
      assert Shift(0.034, 2) == Shift(0.34, 1);
    }
    LeadingDigitComplete(0.0034, 3);
    assert Shift(340.0, -2) == 3.4 by {
      assert Shift(34.0, -1) == Shift(3.4, 0);
    }
    LeadingDigitComplete(340.0, 3);
    assert Shift(7.0, 0) == 7.0;
    LeadingDigitComplete(7.0, 7);
    assert Shift(Abs(-0.5), 1) == 5.0;
    LeadingDigitComplete(-0.5, 5);
  }

  // ---------------------------------------------------------------------------
  // Observed and expected distribution

  /** How many values are non-zero. */
  function NonZeroCount(values: seq<real>): (n: nat)
    ensures n <= |values|
  {
    if |values| == 0 then 0
    else NonZeroCount(values[..|values| - 1]) + (if values[|values| - 1] != 0.0 then 1 else 0)
  }

  lemma {:induction false} NonZeroCountZero(values: seq<real>)
    ensures NonZeroCount(values) == 0 <==> forall i :: 0 <= i < |values| ==> values[i] == 0.0
  {
    if |values| > 0 {
      var prefix := values[..|values| - 1];
      NonZeroCountZero(prefix);
      assert (forall i :: 0 <= i < |values| ==> values[i] == 0.0)
        <==> (forall i :: 0 <= i < |prefix| ==> prefix[i] == 0.0) && values[|values| - 1] == 0.0;
    }
  }

  predicate AllLeadingDigits(ds: seq<int>) {
    forall i :: 0 <= i < |ds| ==> 1 <= ds[i] <= 9
  }

  /** `[digit for value in values if (digit := leading_digit(value)) is not None]`. */
  function LeadingDigits(values: seq<real>): (ds: seq<int>)
    ensures AllLeadingDigits(ds)
    ensures |ds| == NonZeroCount(values)
  {
    if |values| == 0 then []
    else LeadingDigits(values[..|values| - 1]) + OptionToSeq(LeadingDigit(values[|values| - 1]))
  }

  /** Leading digits are collected value by value, so a concatenation gives the concatenated digits. */
  lemma {:induction false} LeadingDigitsAppend(a: seq<real>, b: seq<real>)
    ensures LeadingDigits(a + b) == LeadingDigits(a) + LeadingDigits(b)
  {
    if |b| == 0 {
      assert a + b == a;
    } else {
      var b' := b[..|b| - 1];
      LeadingDigitsAppend(a, b');
      assert (a + b)[..|a + b| - 1] == a + b';
      assert (a + b)[|a + b| - 1] == b[|b| - 1];
    }
  }

  /** One value contributes its leading digit, and zero contributes nothing. */
  lemma LeadingDigitsOfValue(x: real)
    ensures LeadingDigits([x]) == if x == 0.0 then [] else [LeadingDigit(x).value]
  {
    assert [x][..0] == [];
  }

  /** The positions of `values` whose leading digit is `d`. */
  function DigitPositions(values: seq<real>, d: int): set<nat> {
    set i: nat | i < |values| && LeadingDigit(values[i]) == Some(d)
  }

  /** The number of values whose leading digit is `d`, counted over positions. */
  function CountWithDigit(values: seq<real>, d: int): nat {
    |DigitPositions(values, d)|
  }

  lemma DigitPositionsSnoc(values: seq<real>, d: int)
    requires |values| > 0
    ensures var n := |values| - 1;
      CountWithDigit(values, d)
        == CountWithDigit(values[..n], d) + (if LeadingDigit(values[n]) == Some(d) then 1 else 0)
  {
    var n := |values| - 1;
    var p := values[..n];
    var last: set<nat> := if LeadingDigit(values[n]) == Some(d) then {n} else {};
    assert DigitPositions(values, d) == DigitPositions(p, d) + last by {
      assert forall i :: 0 <= i < n ==> p[i] == values[i];
    }
    assert n !in DigitPositions(p, d);
  }

  lemma OccurrencesOfOption(o: Option<int>, d: int)
    ensures Occurrences(OptionToSeq(o), d) == if o == Some(d) then 1 else 0
  {
    if o.Some? {
      assert [o.value][..0] == [];
    }
  }

  /** Counting digit `d` among the collected leading digits counts the values that lead with `d`. */
  lemma {:induction false} LeadingDigitsCount(values: seq<real>, d: int)
    ensures Occurrences(LeadingDigits(values), d) == CountWithDigit(values, d)
  {
    if |values| == 0 {
      assert DigitPositions(values, d) == {};
    } else {
      var n := |values| - 1;
      var o := LeadingDigit(values[n]);
      LeadingDigitsCount(values[..n], d);
      OccurrencesAppend(LeadingDigits(values[..n]), OptionToSeq(o), d);
      OccurrencesOfOption(o, d);
      DigitPositionsSnoc(values, d);
    }
  }

  lemma LeadingDigitsCounts(values: seq<real>)
    ensures forall d :: 1 <= d <= 9 ==> Occurrences(LeadingDigits(values), d) == CountWithDigit(values, d)
  {
    forall d | 1 <= d <= 9 ensures Occurrences(LeadingDigits(values), d) == CountWithDigit(values, d) {
      LeadingDigitsCount(values, d);
    }
  }

  /** `{digit: leading_digits.count(digit) for digit in range(1, 10)}`, entry `d - 1` for digit `d`. */
  function ObservedCounts(ds: seq<int>): (c: seq<nat>)
    ensures |c| == 9
    ensures forall i :: 0 <= i < 9 ==> c[i] == Occurrences(ds, i + 1)
  {
    seq(9, i requires 0 <= i < 9 => Occurrences(ds, i + 1))
  }

  function SumNat(s: seq<nat>): nat {
    if |s| == 0 then 0 else SumNat(s[..|s| - 1]) + s[|s| - 1]
  }

  /** The counts of digits 1..k of a digit list. */
  function CountUpTo(ds: seq<int>, k: nat): nat {
    if k == 0 then 0 else CountUpTo(ds, k - 1) + Occurrences(ds, k)
  }

  lemma {:induction false} CountUpToSnoc(ds: seq<int>, e: int, k: nat)
    ensures CountUpTo(ds + [e], k) == CountUpTo(ds, k) + (if 1 <= e <= k then 1 else 0)
  {
    if k > 0 {
      CountUpToSnoc(ds, e, k - 1);
      assert (ds + [e])[..|ds|] == ds;
    }
  }

  lemma {:induction false} CountUpToAll(ds: seq<int>)
    requires AllLeadingDigits(ds)
    ensures CountUpTo(ds, 9) == |ds|
  {
    if |ds| > 0 {
      var p := ds[..|ds| - 1];
      assert ds == p + [ds[|ds| - 1]];
      assert AllLeadingDigits(p) by {
        forall i | 0 <= i < |p| ensures 1 <= p[i] <= 9 {
          assert p[i] == ds[i];
        }
      }
      CountUpToAll(p);
      CountUpToSnoc(p, ds[|ds| - 1], 9);
      assert CountUpTo(ds, 9) == CountUpTo(p, 9) + 1;
    } else {
      CountUpToEmpty(9);
    }
  }

  lemma {:induction false} CountUpToEmpty(k: nat)
    ensures CountUpTo([], k) == 0
  {
    if k > 0 {
      CountUpToEmpty(k - 1);
    }
  }

  lemma {:induction false} SumNatObserved(ds: seq<int>, k: nat)
    requires k <= 9
    ensures SumNat(ObservedCounts(ds)[..k]) == CountUpTo(ds, k)
  {
    if k > 0 {
      SumNatObserved(ds, k - 1);
      assert ObservedCounts(ds)[..k][..k - 1] == ObservedCounts(ds)[..k - 1];
    }
  }

  /** Every leading digit is counted under exactly one of the digits 1..9. */
  lemma ObservedCountsTotal(ds: seq<int>)
    requires AllLeadingDigits(ds)
    ensures SumNat(ObservedCounts(ds)) == |ds|
  {
    SumNatObserved(ds, 9);
    assert ObservedCounts(ds)[..9] == ObservedCounts(ds);
    CountUpToAll(ds);
  }

  lemma {:induction false} OccurrencesBound(ds: seq<int>, d: int)
    ensures Occurrences(ds, d) <= |ds|
  {
    if |ds| > 0 {
      OccurrencesBound(ds[..|ds| - 1], d);
    }
  }

  /** `math.log10`, left abstract. */
  type Log10 = real -> real

  /** Benford's law: the share of leading digit `d` is log10(1 + 1/d). */
  function BenfordShare(d: nat, log10: Log10): real
    requires d >= 1
  {
    log10(1.0 + 1.0 / d as real)
  }

  /** The summary the script writes: total, then per digit 1..9 at entry `d - 1`. */
  datatype BenfordRecord = BenfordRecord(
    total: nat,
    observed: seq<nat>,
    expected: seq<real>,
    observedShare: seq<real>,
    expectedShare: seq<real>)

  /** `observed_counts[digit] / total`: each share times the total is the count, and lies in [0, 1]. */
  function ObservedShares(observed: seq<nat>, total: nat): (s: seq<real>)
    requires total >= 1
    requires forall i :: 0 <= i < |observed| ==> observed[i] <= total
    ensures |s| == |observed|
    ensures forall i :: 0 <= i < |s| ==> (0.0 <= s[i] <= 1.0 && s[i] * total as real == observed[i] as real)
  {
    ShareFacts(observed, total);
    seq(|observed|, i requires 0 <= i < |observed| => observed[i] as real / total as real)
  }

  lemma ShareFacts(observed: seq<nat>, total: nat)
    requires total >= 1
    requires forall i :: 0 <= i < |observed| ==> observed[i] <= total
    ensures forall i :: 0 <= i < |observed| ==>
      (0.0 <= observed[i] as real / total as real <= 1.0
       && (observed[i] as real / total as real) * total as real == observed[i] as real)
  {
    forall i | 0 <= i < |observed|
      ensures 0.0 <= observed[i] as real / total as real <= 1.0
              && (observed[i] as real / total as real) * total as real == observed[i] as real
    {
      DivideBack(observed[i] as real, total as real);
    }
  }

  lemma DivideBack(a: real, t: real)
    requires t > 0.0
    ensures (a / t) * t == a && (t * a) / t == a
    ensures 0.0 <= a ==> 0.0 <= a / t
    ensures a <= t ==> a / t <= 1.0
  {
  }

  lemma ExpectedShareFacts(total: nat, log10: Log10)
    requires total >= 1
    ensures forall i :: 0 <= i < 9 ==> ExpectedCounts(total, log10)[i] / total as real == BenfordShare(i + 1, log10)
  {
    forall i | 0 <= i < 9 ensures ExpectedCounts(total, log10)[i] / total as real == BenfordShare(i + 1, log10) {
      DivideBack(BenfordShare(i + 1, log10), total as real);
    }
  }

  /** `expected_counts[digit] / total` recovers Benford's share exactly. */
  function ExpectedShares(total: nat, log10: Log10): (s: seq<real>)
    requires total >= 1
    ensures |s| == 9
    ensures forall i :: 0 <= i < 9 ==> s[i] == BenfordShare(i + 1, log10)
  {
    var expected := ExpectedCounts(total, log10);
    ExpectedShareFacts(total, log10);
    seq(9, i requires 0 <= i < 9 => expected[i] / total as real)
  }

  /** `expected_benford_counts(total)`. */
  function ExpectedCounts(total: nat, log10: Log10): (e: seq<real>)
    ensures |e| == 9
    ensures forall i :: 0 <= i < 9 ==> e[i] == total as real * BenfordShare(i + 1, log10)
  {
    seq(9, i requires 0 <= i < 9 => total as real * BenfordShare(i + 1, log10))
  }

  /** The record for a non-empty list of leading digits. */
  function RecordOf(ds: seq<int>, log10: Log10): (rec: BenfordRecord)
    requires AllLeadingDigits(ds) && |ds| >= 1
    ensures rec.total == |ds|
    ensures |rec.observed| == |rec.expected| == |rec.observedShare| == |rec.expectedShare| == 9
    ensures forall i :: 0 <= i < 9 ==> rec.observed[i] == Occurrences(ds, i + 1)
    ensures SumNat(rec.observed) == rec.total
  {
    var observed := ObservedCounts(ds);
    ObservedCountsTotal(ds);
    OccurrencesAllBound(ds);
    BenfordRecord(|ds|, observed, ExpectedCounts(|ds|, log10),
                  ObservedShares(observed, |ds|), ExpectedShares(|ds|, log10))
  }

  /**
   * The percentages the script reports: each observed share lies in [0, 1] and times
   * the total gives the count back; each expected share is Benford's log10(1 + 1/d).
   */
  lemma RecordShares(ds: seq<int>, log10: Log10)
    requires AllLeadingDigits(ds) && |ds| >= 1
    ensures var rec := RecordOf(ds, log10);
      forall i :: 0 <= i < 9 ==>
        (0.0 <= rec.observedShare[i] <= 1.0
         && rec.observedShare[i] * rec.total as real == rec.observed[i] as real
         && rec.expectedShare[i] == BenfordShare(i + 1, log10)
         && rec.expected[i] == rec.total as real * BenfordShare(i + 1, log10))
  {
    OccurrencesAllBound(ds);
  }

  lemma OccurrencesAllBound(ds: seq<int>)
    ensures forall i :: 0 <= i < 9 ==> ObservedCounts(ds)[i] <= |ds|
  {
    forall i | 0 <= i < 9 ensures ObservedCounts(ds)[i] <= |ds| {
      OccurrencesBound(ds, i + 1);
    }
  }

  /**
   * The observed and expected distribution of one column's values: fails with an
   * empty sample when no value has a leading digit, that is, when all are zero.
   */
  function Analyze(values: seq<real>, log10: Log10): (r: Result<BenfordRecord, Error>)
    ensures r.Failure? <==> forall i :: 0 <= i < |values| ==> values[i] == 0.0
    ensures r.Failure? ==> r.error == EmptySample
    ensures r.Success? ==> r.value.total == NonZeroCount(values) >= 1
    ensures r.Success? ==> |LeadingDigits(values)| >= 1 && r.value == RecordOf(LeadingDigits(values), log10)
    ensures r.Success? ==> forall d :: 1 <= d <= 9 ==> r.value.observed[d - 1] == CountWithDigit(values, d)
  {
    var ds := LeadingDigits(values);
    NonZeroCountZero(values);
    LeadingDigitsCounts(values);
    if |ds| == 0 then Failure(EmptySample) else Success(RecordOf(ds, log10))
  }

  /** The expected columns depend on the sample size alone, never on which digits were observed. */
  lemma ExpectedIndependentOfObserved(a: seq<real>, b: seq<real>, log10: Log10)
    requires Analyze(a, log10).Success? && Analyze(b, log10).Success?
    requires NonZeroCount(a) == NonZeroCount(b)
    ensures Analyze(a, log10).value.expected == Analyze(b, log10).value.expected
    ensures Analyze(a, log10).value.expectedShare == Analyze(b, log10).value.expectedShare
  {
    var ra, rb := Analyze(a, log10).value, Analyze(b, log10).value;
    assert forall i :: 0 <= i < 9 ==> ra.expected[i] == rb.expected[i];
    assert forall i :: 0 <= i < 9 ==> ra.expectedShare[i] == rb.expectedShare[i];
  }

  // ---------------------------------------------------------------------------
  // Column choice

  /** `column_values.get(name, [])`. */
  function Get(columns: map<string, seq<real>>, name: string): seq<real> {
    if name in columns then columns[name] else []
  }

  /** `pick_numeric_column`: the first header, in header order, with at least `minCount` numbers. */
  function PickNumericColumn(headers: seq<string>, columns: map<string, seq<real>>, minCount: int)
    : (r: Result<string, Error>)
    ensures r.Failure? <==> forall i :: 0 <= i < |headers| ==> |Get(columns, headers[i])| < minCount
    ensures r.Failure? ==> r.error == NoEligibleColumn(minCount)
    ensures r.Success? ==> exists i :: 0 <= i < |headers| && headers[i] == r.value
                                       && |Get(columns, headers[i])| >= minCount
                                       && forall j :: 0 <= j < i ==> |Get(columns, headers[j])| < minCount
  {
    if |headers| == 0 then Failure(NoEligibleColumn(minCount))
    else if |Get(columns, headers[0])| >= minCount then Success(headers[0])
    else
      var r := PickNumericColumn(headers[1..], columns, minCount);
      assert forall i :: 1 <= i < |headers| ==> headers[i] == headers[1..][i - 1];
      assert r.Success? ==> exists i :: 0 <= i < |headers| && headers[i] == r.value
                                        && |Get(columns, headers[i])| >= minCount
                                        && forall j :: 0 <= j < i ==> |Get(columns, headers[j])| < minCount by {
        if r.Success? {
          var i :| 0 <= i < |headers[1..]| && headers[1..][i] == r.value
                   && |Get(columns, headers[1..][i])| >= minCount
                   && forall j :: 0 <= j < i ==> |Get(columns, headers[1..][j])| < minCount;
          assert headers[i + 1] == r.value;
          forall j | 0 <= j < i + 1 ensures |Get(columns, headers[j])| < minCount {
            if j > 0 { assert headers[j] == headers[1..][j - 1]; }
          }
        }
      }
      r
  }

  /** Column sizes [3, 15, 2] with threshold 10 pick the second; threshold 20 picks none. */
  lemma PickNumericColumnExample()
    ensures PickNumericColumn(["a", "b", "c"], map["a" := seq(3, _ => 1.0), "b" := seq(15, _ => 1.0), "c" := seq(2, _ => 1.0)], 10)
      == Success("b")
    ensures PickNumericColumn(["a", "b", "c"], map["a" := seq(3, _ => 1.0), "b" := seq(15, _ => 1.0), "c" := seq(2, _ => 1.0)], 20)
      == Failure(NoEligibleColumn(20))
  {
    var headers := ["a", "b", "c"];
    assert headers[1..] == ["b", "c"];
    assert headers[1..][1..] == ["c"];
    assert headers[1..][1..][1..] == [];
  }

  // ---------------------------------------------------------------------------
  // The script's pipeline

  /** What the Benford script appends for a cell: its number, if it has one. */
  function NumberCell(parse: FloatParser): Value -> seq<real> {
    (v: Value) => OptionToSeq(Coerce(v, parse))
  }

  /** Benford's numeric projection: per header, the numbers its column coerces to. */
  function NumericColumns(names: seq<string>, rows: seq<Row>, parse: FloatParser): map<string, seq<real>> {
    Project(names, rows, NumberCell(parse))
  }

  lemma {:induction false} NumericColumnOf(rows: seq<Row>, j: nat, parse: FloatParser)
    ensures ColumnOf(rows, j, NumberCell(parse))
         == CoercedValues(ColumnOf(rows, j, KeepCell), parse)
  {
    if |rows| > 0 {
      var raw := ColumnOf(rows[..|rows| - 1], j, KeepCell);
      var last := At(rows[|rows| - 1], j);
      NumericColumnOf(rows[..|rows| - 1], j, parse);
      assert (raw + [last])[..|raw|] == raw;
    }
  }

  /**
   * With distinct headers, the numbers Benford's projection collects under a header
   * are the coercible values of that header's raw column, in row order.
   */
  lemma NumericColumnsAreCoercedRawColumns(names: seq<string>, rows: seq<Row>, parse: FloatParser, j: nat)
    requires Distinct(names) && j < |names|
    ensures names[j] in NumericColumns(names, rows, parse) && names[j] in RawColumns(names, rows)
    ensures NumericColumns(names, rows, parse)[names[j]] == CoercedValues(RawColumns(names, rows)[names[j]], parse)
  {
    ProjectDistinct(names, rows, NumberCell(parse), j);
    ProjectDistinct(names, rows, KeepCell, j);
    NumericColumnOf(rows, j, parse);
  }

  /** The selected column and its Benford record. */
  datatype BenfordReport = BenfordReport(column: string, record: BenfordRecord)

  /** `column_values` of a decoded sheet: the numeric projection of its data rows under its header names. */
  function GridNumericColumns(grid: Grid, parse: FloatParser): (columns: map<string, seq<real>>)
    requires |grid| > 0
    ensures forall name :: name in columns <==> name in HeaderNames(grid[0])
  {
    var headers := HeaderNames(grid[0]);
    var columns := NumericColumns(headers, NormalizeRows(grid[1..], |headers|), parse);
    assert forall name :: name in columns <==> name in headers by {
      forall name ensures name in columns <==> name in headers {
        if name in headers {
          var i :| 0 <= i < |headers| && headers[i] == name;
        }
      }
    }
    columns
  }

  /**
   * `main` from the decoded rows on: header names, normalised data rows, numeric
   * projection, column choice (explicit or automatic) and the Benford record of the
   * chosen column's numbers.
   */
  function BenfordFromGrid(grid: Grid, column: Option<string>, minCount: int, parse: FloatParser, log10: Log10)
    : (r: Result<BenfordReport, Error>)
    ensures |grid| == 0 <==> r == Failure(EmptyGrid)
    ensures r.Success? ==> r.value.column in HeaderNames(grid[0])
    ensures r.Success? ==> Analyze(GridNumericColumns(grid, parse)[r.value.column], log10) == Success(r.value.record)
    ensures r.Success? ==> r.value.record.total >= 1 && SumNat(r.value.record.observed) == r.value.record.total
    ensures |grid| > 0 && column.Some? && column.value !in HeaderNames(grid[0])
      ==> r == Failure(ColumnNotFound(column.value))
    ensures |grid| > 0 && column.Some? && column.value in HeaderNames(grid[0]) ==>
      (r.Failure? <==> NonZeroCount(GridNumericColumns(grid, parse)[column.value]) == 0)
      && (r.Failure? ==> r.error == EmptySample)
      && (r.Success? ==> r.value.column == column.value)
    ensures |grid| > 0 && column.None? ==>
      var pick := PickNumericColumn(HeaderNames(grid[0]), GridNumericColumns(grid, parse), minCount);
      (pick.Failure? ==> r == Failure(NoEligibleColumn(minCount)))
      && (pick.Success? ==>
            pick.value in HeaderNames(grid[0])
            && (r.Failure? <==> NonZeroCount(GridNumericColumns(grid, parse)[pick.value]) == 0)
            && (r.Failure? ==> r.error == EmptySample))
      && (r.Success? ==> pick == Success(r.value.column))
    ensures |grid| > 0 && column.None? && r.Success? ==>
      |Get(GridNumericColumns(grid, parse), r.value.column)| >= minCount
  {
    if |grid| == 0 then Failure(EmptyGrid)
    else
      var headers := HeaderNames(grid[0]);
      var columns := GridNumericColumns(grid, parse);
      var selected :- if column.Some? then Success(column.value) else PickNumericColumn(headers, columns, minCount);
      if selected !in columns then Failure(ColumnNotFound(selected))
      else
        NonZeroCountZero(columns[selected]);
        var record :- Analyze(columns[selected], log10);
        Success(BenfordReport(selected, record))
  }

  /** The whole script from the archive: decoding failures surface before any analysis. */
  function BenfordRun(book: Workbook, sheetPath: string, column: Option<string>, minCount: int,
                      parse: FloatParser, log10: Log10): (r: Result<BenfordReport, Error>)
    ensures sheetPath !in book.sheets ==> r == Failure(MissingSheet(sheetPath))
    ensures r.Success? ==> DecodeSheet(book, sheetPath).Success? && |DecodeSheet(book, sheetPath).value| >= 1
    ensures DecodeSheet(book, sheetPath).Failure? ==> r == Failure(DecodeSheet(book, sheetPath).error)
    ensures DecodeSheet(book, sheetPath).Success? ==>
      r == BenfordFromGrid(DecodeSheet(book, sheetPath).value, column, minCount, parse, log10)
  {
    var grid :- DecodeSheet(book, sheetPath);
    BenfordFromGrid(grid, column, minCount, parse, log10)
  }
}

=== FILE: column_ref.dfy ===
/**
 * Column letters of an A1-style cell reference (SpreadsheetML, ECMA-376 Part 1,
 * section 18.3.1.4): the letters form a bijective base-26 numeral (A = 1 ... Z = 26,
 * AA = 27, ...) and the zero-based column index is that numeral minus one.
 */
module ColumnRef {
  import opened Decimal

  /** Letters as `str.isalpha` sees them, restricted to ASCII. */
  predicate IsLetter(c: char) {
    'A' <= c <= 'Z' || 'a' <= c <= 'z'
  }

  predicate IsUpper(c: char) {
    'A' <= c <= 'Z'
  }

  predicate AllUpper(s: string) {
    forall i :: 0 <= i < |s| ==> IsUpper(s[i])
  }

  predicate AllLetters(s: string) {
    forall i :: 0 <= i < |s| ==> IsLetter(s[i])
  }

  /** `ch.upper()` on ASCII: lower-case letters move up, everything else is unchanged. */
  function ToUpper(c: char): char {
    if 'a' <= c <= 'z' then (c as int - 32) as char else c
  }

  function UpperString(s: string): (r: string)
    ensures |r| == |s|
    ensures forall i :: 0 <= i < |s| ==> r[i] == ToUpper(s[i])
  {
    if |s| == 0 then [] else [ToUpper(s[0])] + UpperString(s[1..])
  }

  /** `"".join(ch for ch in cell_ref if ch.isalpha())`. */
  function Letters(s: string): (r: string)
    ensures AllLetters(r)
    ensures |r| <= |s|
  {
    if |s| == 0 then []
    else if IsLetter(s[0]) then [s[0]] + Letters(s[1..])
    else Letters(s[1..])
  }

  /** `ord(char.upper()) - ord("A") + 1`: the digit a letter stands for. */
  function LetterValue(c: char): (v: int)
    requires IsLetter(c)
    ensures 1 <= v <= 26
  {
    ToUpper(c) as int - 'A' as int + 1
  }

  /** The accumulator of the loop `index = index * 26 + LetterValue(char)`, read left to right. */
  function Base26(s: string): (n: int)
    requires AllLetters(s)
    ensures n >= 0
    ensures |s| > 0 ==> n >= 1
  {
    if |s| == 0 then 0 else Base26(s[..|s| - 1]) * 26 + LetterValue(s[|s| - 1])
  }

  /** `column_index(cell_ref)`: the zero-based column a reference names, or -1 when it has no letters. */
  function ColumnIndex(cellRef: string): (index: int)
    ensures index >= -1
    ensures index == -1 <==> Letters(cellRef) == []
  {
    Base26(Letters(cellRef)) - 1
  }

  /** Bijective base-26 spelling of a positive numeral (the empty string for zero). */
  function Bijective26(n: nat): (s: string)
    ensures AllUpper(s) && AllLetters(s)
    ensures |s| == 0 <==> n == 0
    decreases n
  {
    if n == 0 then []
    else Bijective26((n - 1) / 26) + [('A' as int + (n - 1) % 26) as char]
  }

  /** The letters that name the zero-based column `index` (0 -> "A", 26 -> "AA"). */
  function ColumnLetters(index: nat): (s: string)
    ensures |s| > 0 && AllUpper(s) && AllLetters(s)
  {
    Bijective26(index + 1)
  }

  lemma Base26Snoc(s: string, c: char)
    requires AllLetters(s) && IsLetter(c)
    ensures AllLetters(s + [c])
    ensures Base26(s + [c]) == Base26(s) * 26 + LetterValue(c)
  {
    assert (s + [c])[..|s|] == s;
  }

  /** Decoding the spelling of a numeral gives the numeral back. */
  lemma {:induction false} Base26OfBijective26(n: nat)
    ensures Base26(Bijective26(n)) == n
    decreases n
  {
    if n > 0 {
      var q, r := (n - 1) / 26, (n - 1) % 26;
      Base26OfBijective26(q);
      Base26Snoc(Bijective26(q), ('A' as int + r) as char);
    }
  }

  lemma DivModBase26(a: int, v: int)
    requires a >= 0 && 1 <= v <= 26
    ensures (a * 26 + v - 1) / 26 == a
    ensures (a * 26 + v - 1) % 26 == v - 1
  {
  }

  /** Spelling the numeral an upper-case letter string denotes gives the string back. */
  lemma {:induction false} Bijective26OfBase26(s: string)
    requires AllUpper(s)
    ensures AllLetters(s)
    ensures Bijective26(Base26(s)) == s
  {
    if |s| > 0 {
      var p, c := s[..|s| - 1], s[|s| - 1];
      assert s == p + [c];
      Bijective26OfBase26(p);
      DivModBase26(Base26(p), LetterValue(c));
    }
  }

  /** `column_index` inverts `ColumnLetters`: every column index is reachable. */
  lemma ColumnIndexOfColumnLetters(index: nat)
    ensures ColumnIndex(ColumnLetters(index)) == index
  {
    var s := ColumnLetters(index);
    LettersOfAllLetters(s);
    Base26OfBijective26(index + 1);
  }

  /** ... and `ColumnLetters` inverts `column_index` on non-empty upper-case letter strings. */
  lemma ColumnLettersOfColumnIndex(s: string)
    requires |s| > 0 && AllUpper(s)
    ensures ColumnIndex(s) >= 0
    ensures ColumnLetters(ColumnIndex(s)) == s
  {
    assert AllLetters(s);
    LettersOfAllLetters(s);
    Bijective26OfBase26(s);
  }

  /** Distinct upper-case letter strings decode to distinct columns. */
  lemma ColumnIndexInjective(s: string, t: string)
    requires |s| > 0 && AllUpper(s) && |t| > 0 && AllUpper(t)
    requires s != t
    ensures ColumnIndex(s) != ColumnIndex(t)
  {
    ColumnLettersOfColumnIndex(s);
    ColumnLettersOfColumnIndex(t);
  }

  lemma {:induction false} LettersOfAllLetters(s: string)
    requires AllLetters(s)
    ensures Letters(s) == s
  {
    if |s| > 0 {
      LettersOfAllLetters(s[1..]);
    }
  }

  /** Non-letters in a reference (the row digits, a `$`) do not change the column. */
  lemma ColumnIndexIgnoresNonLetters(cellRef: string)
    ensures ColumnIndex(cellRef) == ColumnIndex(Letters(cellRef))
  {
    LettersOfAllLetters(Letters(cellRef));
  }

  lemma {:induction false} LettersOfUpper(s: string)
    ensures Letters(UpperString(s)) == UpperString(Letters(s))
  {
    if |s| > 0 {
      LettersOfUpper(s[1..]);
      assert UpperString(s)[1..] == UpperString(s[1..]);
    }
  }

  lemma {:induction false} Base26OfUpper(s: string)
    requires AllLetters(s)
    ensures AllLetters(UpperString(s))
    ensures Base26(UpperString(s)) == Base26(s)
  {
    if |s| > 0 {
      var n := |s| - 1;
      var u := UpperString(s);
      Base26OfUpper(s[..n]);
      assert u[..n] == UpperString(s[..n]);
      UpperLetter(s[n]);
      assert u[n] == ToUpper(s[n]);
    }
  }

  lemma UpperLetter(c: char)
    requires IsLetter(c)
    ensures IsLetter(ToUpper(c)) && LetterValue(ToUpper(c)) == LetterValue(c)
  {
  }

  /** Column letters are case-insensitive: "ab7" and "AB7" name the same column. */
  lemma ColumnIndexCaseInsensitive(cellRef: string)
    ensures ColumnIndex(UpperString(cellRef)) == ColumnIndex(cellRef)
  {
    LettersOfUpper(cellRef);
    Base26OfUpper(Letters(cellRef));
  }

  lemma {:induction false} LettersOfDigits(s: string)
    requires AllDigits(s)
    ensures Letters(s) == []
  {
    if |s| > 0 {
      LettersOfDigits(s[1..]);
    }
  }

  lemma {:induction false} LettersAppend(s: string, t: string)
    ensures Letters(s + t) == Letters(s) + Letters(t)
  {
    if |s| == 0 {
      assert s + t == t;
    } else {
      assert (s + t)[0] == s[0];
      assert (s + t)[1..] == s[1..] + t;
      LettersAppend(s[1..], t);
    }
  }

  /** An A1 reference built from a column's letters and a row number decodes to that column. */
  lemma ColumnIndexOfA1Reference(index: nat, row: nat)
    ensures ColumnIndex(ColumnLetters(index) + NatToString(row)) == index
  {
    var s := ColumnLetters(index);
    LettersAppend(s, NatToString(row));
    LettersOfDigits(NatToString(row));
    LettersOfAllLetters(s);
    assert Letters(s + NatToString(row)) == s;
    ColumnIndexOfColumnLetters(index);
  }

  /** The standard single- and double-letter references. */
  lemma ColumnIndexExamples()
    ensures ColumnIndex("A1") == 0
    ensures ColumnIndex("Z9") == 25
    ensures ColumnIndex("AA3") == 26
    ensures ColumnIndex("AZ10") == 51
    ensures ColumnIndex("BA2") == 52
    ensures ColumnIndex("ba2") == 52
    ensures ColumnIndex("17") == -1
  {
    assert Letters("A1") == "A";
    assert Letters("Z9") == "Z";
    assert Letters("AA3") == "AA";
    assert Letters("AZ10") == "AZ";
    assert Letters("BA2") == "BA";
    assert Letters("ba2") == "ba";
    assert Letters("17") == [];
    assert "AA"[..1] == "A";
    assert "AZ"[..1] == "A";
    assert "BA"[..1] == "B";
    assert "ba"[..1] == "b";
  }

  /** References without letters decode to −1; letters before a row number decode to their column. */
  lemma ColumnIndexExamplesMore()
    ensures ColumnIndex("7") == -1
    ensures ColumnIndex("1") == -1
    ensures ColumnIndex("C1") == 2
  {
    assert Letters("7") == [];
    assert Letters("1") == [];
    assert Letters("C1") == "C";
  }
}

=== FILE: columns.dfy ===
/**
 * The column projector the two scripts share: header names from the first row,
 * data rows padded or cut to the header width, and the column-major re-indexing
 * into a dict from column name to the values found under it.
 */
module Columns {
  import opened Wrappers
  import opened Decimal
  import opened SheetGrid

  /** The name a blank header cell at zero-based `position` receives: `f"Column{idx+1}"`. */
  function SynthName(position: nat): string {
    "Column" + NatToString(position + 1)
  }

  /** Synthesised names are unique by position. */
  lemma SynthNamesDistinct(i: nat, j: nat)
    requires i != j
    ensures SynthName(i) != SynthName(j)
  {
    NatToStringInjective(i + 1, j + 1);
    assert SynthName(i)[6..] == NatToString(i + 1);
    assert SynthName(j)[6..] == NatToString(j + 1);
  }

  /** The header names of a grid's first row: its text where present, a synthesised name where `None`. */
  function HeaderNames(header: Row): (names: seq<string>)
    ensures |names| == |header|
    ensures forall i :: 0 <= i < |header| && header[i].Some? ==> names[i] == header[i].value
    ensures forall i :: 0 <= i < |header| && header[i].None? ==> names[i] == SynthName(i)
  {
    seq(|header|, i requires 0 <= i < |header| =>
      match header[i] case Some(text) => text case None => SynthName(i))
  }

  /** Every position of the header row gets a name, and a row without any header text gets distinct ones. */
  lemma HeaderNamesOfBlankRow(header: Row)
    requires forall i :: 0 <= i < |header| ==> header[i].None?
    ensures forall i, j :: 0 <= i < j < |header| ==> HeaderNames(header)[i] != HeaderNames(header)[j]
  {
    forall i, j | 0 <= i < j < |header| ensures HeaderNames(header)[i] != HeaderNames(header)[j] {
      SynthNamesDistinct(i, j);
    }
  }

  /** Header texts are pairwise different, and none spells the synthesised name of a blank position. */
  predicate HeaderTextsUnambiguous(header: Row) {
    (forall i, j :: 0 <= i < j < |header| && header[i].Some? && header[j].Some? ==> header[i].value != header[j].value)
    && (forall i, j :: 0 <= i < |header| && 0 <= j < |header| && header[i].Some? && header[j].None?
          ==> header[i].value != SynthName(j))
  }

  /**
   * The header names are distinct exactly when the header texts are unambiguous: no
   * two cells carry the same text, and no text equals the name a blank cell receives.
   */
  lemma HeaderNamesDistinct(header: Row)
    ensures Distinct(HeaderNames(header)) <==> HeaderTextsUnambiguous(header)
  {
    var names := HeaderNames(header);
    if HeaderTextsUnambiguous(header) {
      forall i, j | 0 <= i < j < |names| ensures names[i] != names[j] {
        if header[i].None? && header[j].None? {
          SynthNamesDistinct(i, j);
        }
      }
    }
    if Distinct(names) {
      forall i, j | 0 <= i < |header| && 0 <= j < |header| && header[i].Some? && header[j].None?
        ensures header[i].value != SynthName(j)
      {
        if i < j {
          assert names[i] != names[j];
        } else {
          assert names[j] != names[i];
        }
      }
      forall i, j | 0 <= i < j < |header| && header[i].Some? && header[j].Some?
        ensures header[i].value != header[j].value
      {
        assert names[i] != names[j];
      }
    }
  }

  /** `(row + [None] * (width - len(row)))[:width]`. */
  function NormalizeRow(row: Row, width: nat): (r: Row)
    ensures |r| == width
    ensures forall i :: 0 <= i < |row| && i < width ==> r[i] == row[i]
    ensures forall i :: |row| <= i < width ==> r[i].None?
  {
    (row + Nones(width - |row|))[..width]
  }

  function NormalizeRows(rows: seq<Row>, width: nat): (r: seq<Row>)
    ensures |r| == |rows|
    ensures forall i :: 0 <= i < |rows| ==> r[i] == NormalizeRow(rows[i], width)
    ensures forall i :: 0 <= i < |rows| ==> |r[i]| == width
    ensures forall i, j :: 0 <= i < |rows| && 0 <= j < |rows[i]| && j < width ==> r[i][j] == rows[i][j]
    ensures forall i, j :: 0 <= i < |rows| && |rows[i]| <= j < width ==> r[i][j].None?
  {
    seq(|rows|, i requires 0 <= i < |rows| => NormalizeRow(rows[i], width))
  }

  /** `row[idx] if idx < len(row) else None`. */
  function At(row: Row, idx: nat): Value {
    if idx < |row| then row[idx] else None
  }

  predicate Distinct(names: seq<string>) {
    forall i, j :: 0 <= i < j < |names| ==> names[i] != names[j]
  }

  /**
   * One pass of `for idx, name in enumerate(headers)` over the first `k` headers for
   * one row: the list under each header name grows by what `emit` makes of the cell.
   */
  function AppendRow<T>(m: map<string, seq<T>>, names: seq<string>, row: Row, k: nat, emit: Value -> seq<T>)
    : (r: map<string, seq<T>>)
    requires k <= |names|
    requires forall i :: 0 <= i < |names| ==> names[i] in m
    ensures r.Keys == m.Keys
  {
    if k == 0 then m
    else
      var m' := AppendRow(m, names, row, k - 1, emit);
      m'[names[k - 1] := m'[names[k - 1]] + emit(At(row, k - 1))]
  }

  /**
   * `{name: [] for name in headers}` followed by the row loop: the dict from each
   * header name to the values `emit` produces for its column, rows in order.
   */
  function Project<T>(names: seq<string>, rows: seq<Row>, emit: Value -> seq<T>): (r: map<string, seq<T>>)
    ensures r.Keys == set i | 0 <= i < |names| :: names[i]
  {
    if |rows| == 0 then map i | 0 <= i < |names| :: names[i] := []
    else AppendRow(Project(names, rows[..|rows| - 1], emit), names, rows[|rows| - 1], |names|, emit)
  }

  /** The column at position `j`, stated without dicts: each row's contribution in row order. */
  function ColumnOf<T>(rows: seq<Row>, j: nat, emit: Value -> seq<T>): seq<T> {
    if |rows| == 0 then [] else ColumnOf(rows[..|rows| - 1], j, emit) + emit(At(rows[|rows| - 1], j))
  }

  lemma {:induction false} AppendRowDistinct<T>(m: map<string, seq<T>>, names: seq<string>, row: Row, k: nat,
                                                 emit: Value -> seq<T>, j: nat)
    requires k <= |names| && j < |names| && Distinct(names)
    requires forall i :: 0 <= i < |names| ==> names[i] in m
    ensures AppendRow(m, names, row, k, emit)[names[j]] == m[names[j]] + (if j < k then emit(At(row, j)) else [])
  {
    if k == 0 {
      assert m[names[j]] + [] == m[names[j]];
    } else {
      AppendRowDistinct(m, names, row, k - 1, emit, j);
      if j != k - 1 {
        assert names[k - 1] != names[j];
      }
    }
  }

  /** With distinct header names, the dict holds exactly each position's column. */
  lemma {:induction false} ProjectDistinct<T>(names: seq<string>, rows: seq<Row>, emit: Value -> seq<T>, j: nat)
    requires Distinct(names) && j < |names|
    ensures names[j] in Project(names, rows, emit)
    ensures Project(names, rows, emit)[names[j]] == ColumnOf(rows, j, emit)
  {
    if |rows| > 0 {
      var prefix := rows[..|rows| - 1];
      ProjectDistinct(names, prefix, emit, j);
      AppendRowDistinct(Project(names, prefix, emit), names, rows[|rows| - 1], |names|, emit, j);
    }
  }

  /** What the summary script appends for a cell: the cell itself. */
  function KeepCell(v: Value): seq<Value> {
    [v]
  }

  /** The raw column dict of the summary script: every cell, `None` included. */
  function RawColumns(names: seq<string>, rows: seq<Row>): map<string, seq<Value>> {
    Project(names, rows, KeepCell)
  }

  lemma {:induction false} RawColumnOf(rows: seq<Row>, j: nat)
    ensures ColumnOf(rows, j, KeepCell) == seq(|rows|, i requires 0 <= i < |rows| => At(rows[i], j))
  {
    if |rows| > 0 {
      RawColumnOf(rows[..|rows| - 1], j);
    }
  }

  /**
   * With distinct header names, each raw column lists the cell of every data row
   * in row order (so it is as long as there are data rows).
   */
  lemma RawColumnsDistinct(names: seq<string>, rows: seq<Row>, j: nat)
    requires Distinct(names) && j < |names|
    ensures names[j] in RawColumns(names, rows)
    ensures |RawColumns(names, rows)[names[j]]| == |rows|
    ensures forall i :: 0 <= i < |rows| ==> RawColumns(names, rows)[names[j]][i] == At(rows[i], j)
  {
    ProjectDistinct(names, rows, KeepCell, j);
    RawColumnOf(rows, j);
  }

  /** How many times `x` occurs in `s`. */
  function Occurrences<T(==)>(s: seq<T>, x: T): nat {
    if |s| == 0 then 0 else Occurrences(s[..|s| - 1], x) + (if s[|s| - 1] == x then 1 else 0)
  }
  lemma {:induction false} OccurrencesAppend<T>(s: seq<T>, t: seq<T>, x: T)
    ensures Occurrences(s + t, x) == Occurrences(s, x) + Occurrences(t, x)
  {
    if |t| == 0 {
      assert s + t == s;
    } else {
      var t' := t[..|t| - 1];
      OccurrencesAppend(s, t', x);
      assert (s + t)[..|s + t| - 1] == s + t';
      assert (s + t)[|s + t| - 1] == t[|t| - 1];
    }
  }

  lemma {:induction false} AppendRowLength<T>(m: map<string, seq<T>>, names: seq<string>, row: Row, k: nat,
                                               emit: Value -> seq<T>, name: string)
    requires k <= |names| && name in m
    requires forall i :: 0 <= i < |names| ==> names[i] in m
    requires forall v :: |emit(v)| == 1
    ensures |AppendRow(m, names, row, k, emit)[name]| == |m[name]| + Occurrences(names[..k], name)
  {
    if k > 0 {
      AppendRowLength(m, names, row, k - 1, emit, name);
      assert names[..k][..k - 1] == names[..k - 1];
    }
  }

  /** The cells of `row` under every header called `name`, left to right. */
  function CellsNamed(names: seq<string>, row: Row, name: string): (r: seq<Value>)
    ensures |r| == Occurrences(names, name)
  {
    if |names| == 0 then []
    else CellsNamed(names[..|names| - 1], row, name) + (if names[|names| - 1] == name then [At(row, |names| - 1)] else [])
  }

  lemma {:induction false} AppendRowNamed(m: map<string, seq<Value>>, names: seq<string>, row: Row, k: nat, name: string)
    requires k <= |names| && name in m
    requires forall i :: 0 <= i < |names| ==> names[i] in m
    ensures AppendRow(m, names, row, k, KeepCell)[name] == m[name] + CellsNamed(names[..k], row, name)
  {
    if k > 0 {
      AppendRowNamed(m, names, row, k - 1, name);
      assert names[..k][..k - 1] == names[..k - 1];
      assert names[..k][k - 1] == names[k - 1];
    } else {
      assert m[name] + [] == m[name];
    }
  }

  /** Each data row adds its cells under `name` to the end of the shared list. */
  lemma RawColumnSnoc(names: seq<string>, rows: seq<Row>, name: string)
    requires name in names && |rows| > 0
    ensures RawColumns(names, rows)[name]
            == RawColumns(names, rows[..|rows| - 1])[name] + CellsNamed(names, rows[|rows| - 1], name)
  {
    var i :| 0 <= i < |names| && names[i] == name;
    AppendRowNamed(Project(names, rows[..|rows| - 1], KeepCell), names, rows[|rows| - 1], |names|, name);
    assert names[..|names|] == names;
  }

  lemma MulStep(i: nat, n: nat, c: nat)
    requires i < n
    ensures (i + 1) * c == i * c + c && (i + 1) * c <= n * c
  {
  }

  lemma SliceOfAppend<T>(a: seq<T>, b: seq<T>, lo: nat, hi: nat)
    requires lo <= hi <= |a|
    ensures (a + b)[lo..hi] == a[lo..hi]
  {
  }

  /**
   * Under duplicate header names the shared list is row-major: row `i` occupies the
   * `c` slots from `i * c`, holding its cells under that name from left to right.
   */
  lemma {:induction false} RawColumnInterleaved(names: seq<string>, rows: seq<Row>, name: string, i: nat)
    requires name in names && i < |rows|
    ensures |RawColumns(names, rows)[name]| == |rows| * Occurrences(names, name)
    ensures RawColumns(names, rows)[name][i * Occurrences(names, name)..(i + 1) * Occurrences(names, name)]
            == CellsNamed(names, rows[i], name)
  {
    var c := Occurrences(names, name);
    var n := |rows|;
    var prefix := rows[..n - 1];
    RawColumnLength(names, rows, name);
    RawColumnLength(names, prefix, name);
    RawColumnSnoc(names, rows, name);
    var before := RawColumns(names, prefix)[name];
    var last := CellsNamed(names, rows[n - 1], name);
    assert |before| == (n - 1) * c;
    MulStep(i, n, c);
    var lo, hi := i * c, (i + 1) * c;
    if i < n - 1 {
      RawColumnInterleaved(names, prefix, name, i);
      MulStep(i, n - 1, c);
      SliceOfAppend(before, last, lo, hi);
      assert prefix[i] == rows[i];
    } else {
      assert lo == |before| && hi == |before| + |last|;
      assert (before + last)[lo..hi] == last;
    }
  }

  /**
   * Duplicate header names share one list, which receives the cells of every column
   * carrying that name: the list is as long as the data rows times the name's multiplicity.
   */
  lemma {:induction false} RawColumnLength(names: seq<string>, rows: seq<Row>, name: string)
    requires name in names
    ensures name in RawColumns(names, rows)
    ensures |RawColumns(names, rows)[name]| == |rows| * Occurrences(names, name)
  {
    var c := Occurrences(names, name);
    if |rows| > 0 {
      var prefix := rows[..|rows| - 1];
      var before := Project(names, prefix, KeepCell);
      calc {
        |RawColumns(names, rows)[name]|;
        |AppendRow(before, names, rows[|rows| - 1], |names|, KeepCell)[name]|;
        { AppendRowLength(before, names, rows[|rows| - 1], |names|, KeepCell, name);
          assert names[..|names|] == names; }
        |before[name]| + c;
        { RawColumnLength(names, prefix, name); }
        |prefix| * c + c;
        |rows| * c;
      }
    } else {
      assert RawColumns(names, rows)[name] == [];
    }
  }
}

=== FILE: decimal.dfy ===
/** Decimal notation for naturals: Python's `str(n)` and the digit part of `int(s)`. */
module Decimal {

  predicate IsDigit(c: char) {
    '0' <= c <= '9'
  }

  predicate AllDigits(s: string) {
    forall i :: 0 <= i < |s| ==> IsDigit(s[i])
  }

  function DigitChar(d: int): (c: char)
    requires 0 <= d <= 9
    ensures IsDigit(c)
    ensures c as int - '0' as int == d
  {
    ('0' as int + d) as char
  }

  /** `str(n)` for a non-negative integer: most significant digit first, no leading zeros. */
  function NatToString(n: nat): (s: string)
    ensures |s| > 0 && AllDigits(s)
    ensures s[0] == '0' ==> n == 0
  {
    if n < 10 then [DigitChar(n)] else NatToString(n / 10) + [DigitChar(n % 10)]
  }

  /** The value of a string of decimal digits read most significant first. */
  function DigitsValue(s: string): nat
    requires AllDigits(s)
  {
    if |s| == 0 then 0 else DigitsValue(s[..|s| - 1]) * 10 + (s[|s| - 1] as int - '0' as int)
  }

  /** Reading back what `NatToString` wrote gives the number again. */
  lemma {:induction false} DigitsValueOfNatToString(n: nat)
    ensures DigitsValue(NatToString(n)) == n
  {
    var s := NatToString(n);
    if n >= 10 {
      DigitsValueOfNatToString(n / 10);
      assert s[..|s| - 1] == NatToString(n / 10);
    }
  }

  /** Distinct naturals have distinct decimal spellings. */
  lemma NatToStringInjective(a: nat, b: nat)
    requires a != b
    ensures NatToString(a) != NatToString(b)
  {
    DigitsValueOfNatToString(a);
    DigitsValueOfNatToString(b);
  }
}

=== FILE: inference.dfy ===
/**
 * Type inference over one column's raw values: numeric coercion and date
 * detection. Python's `float()` and `datetime.strptime` are library behaviour and
 * enter as abstract partial functions.
 */
module Inference {
  import opened Wrappers
  import opened SheetGrid

  /** `float(text)`: the number a string denotes, or `None` where Python raises ValueError. */
  type FloatParser = string -> Option<real>

  /** `value in (None, "")`. */
  predicate IsBlank(v: Value) {
    v.None? || v.value == ""
  }

  /** `coerce_numeric(value)`: blanks give no number; other text is handed to the float parser. */
  function Coerce(v: Value, parse: FloatParser): (r: Option<real>)
    ensures IsBlank(v) ==> r.None?
  {
    if IsBlank(v) then None else parse(v.value)
  }

  /** The numbers of a column in order, blanks and malformed text dropped. */
  function CoercedValues(values: seq<Value>, parse: FloatParser): (r: seq<real>)
    ensures |r| <= |values|
  {
    if |values| == 0 then []
    else CoercedValues(values[..|values| - 1], parse) + OptionToSeq(Coerce(values[|values| - 1], parse))
  }

  /** Coercing a concatenation coerces each part and concatenates, so the order of the numbers is the row order. */
  lemma {:induction false} CoercedValuesAppend(a: seq<Value>, b: seq<Value>, parse: FloatParser)
    ensures CoercedValues(a + b, parse) == CoercedValues(a, parse) + CoercedValues(b, parse)
  {
    if |b| == 0 {
      assert a + b == a;
    } else {
      var b' := b[..|b| - 1];
      CoercedValuesAppend(a, b', parse);
      assert (a + b)[..|a + b| - 1] == a + b';
      assert (a + b)[|a + b| - 1] == b[|b| - 1];
    }
  }

  /** A single cell contributes its number, or nothing when it is blank or not numeric. */
  lemma CoercedValuesOfCell(v: Value, parse: FloatParser)
    ensures CoercedValues([v], parse) == (if IsBlank(v) then [] else OptionToSeq(parse(v.value)))
  {
    assert [v][..0] == [];
  }

  /** A number is in the list exactly when some value of the column coerces to it. */
  lemma {:induction false} CoercedValuesMembers(values: seq<Value>, parse: FloatParser, x: real)
    ensures x in CoercedValues(values, parse) <==> exists i :: 0 <= i < |values| && Coerce(values[i], parse) == Some(x)
  {
    if |values| > 0 {
      var p := values[..|values| - 1];
      CoercedValuesMembers(p, parse, x);
      assert forall i :: 0 <= i < |p| ==> p[i] == values[i];
      if (exists i :: 0 <= i < |values| && Coerce(values[i], parse) == Some(x)) {
        var i :| 0 <= i < |values| && Coerce(values[i], parse) == Some(x);
        if i < |p| {
          assert Coerce(p[i], parse) == Some(x);
        }
      }
    }
  }

  /** A column has a number exactly when some value coerces. */
  lemma {:induction false} CoercedValuesEmpty(values: seq<Value>, parse: FloatParser)
    ensures |CoercedValues(values, parse)| > 0 <==> exists i :: 0 <= i < |values| && Coerce(values[i], parse).Some?
  {
    if |values| > 0 {
      var p := values[..|values| - 1];
      CoercedValuesEmpty(p, parse);
      assert forall i :: 0 <= i < |p| ==> p[i] == values[i];
    }
  }

  /** The number of non-blank values. */
  function NonBlankCount(values: seq<Value>): (n: nat)
    ensures n <= |values|
  {
    if |values| == 0 then 0
    else NonBlankCount(values[..|values| - 1]) + (if IsBlank(values[|values| - 1]) then 0 else 1)
  }

  /** A `datetime`: compared field by field, most significant first. */
  datatype DateTime = DateTime(year: int, month: int, day: int, hour: int, minute: int, second: int)

  /** Python's `a < b` on datetimes: lexicographic on the fields. */
  predicate DateLt(a: DateTime, b: DateTime) {
    if a.year != b.year then a.year < b.year
    else if a.month != b.month then a.month < b.month
    else if a.day != b.day then a.day < b.day
    else if a.hour != b.hour then a.hour < b.hour
    else if a.minute != b.minute then a.minute < b.minute
    else a.second < b.second
  }

  predicate DateLe(a: DateTime, b: DateTime) {
    a == b || DateLt(a, b)
  }

  lemma DateLtTransitive(a: DateTime, b: DateTime, c: DateTime)
    requires DateLt(a, b) && DateLt(b, c)
    ensures DateLt(a, c)
  {
  }

  lemma DateLtTotal(a: DateTime, b: DateTime)
    ensures DateLt(a, b) || a == b || DateLt(b, a)
  {
  }

  /** The formats `parse_date` tries, in its order. */
  datatype DateFormat =
    | YearMonthDay          // "%Y-%m-%d"
    | YearMonth             // "%Y-%m"
    | MonthDayYear          // "%m/%d/%Y"
    | MonthDayShortYear     // "%m/%d/%y"
    | SlashYearMonthDay     // "%Y/%m/%d"
    | YearMonthDayTime      // "%Y-%m-%d %H:%M:%S"
  {
    /** The `strptime` directive string of the format. */
    function Directive(): string {
      match this
      case YearMonthDay => "%Y-%m-%d"
      case YearMonth => "%Y-%m"
      case MonthDayYear => "%m/%d/%Y"
      case MonthDayShortYear => "%m/%d/%y"
      case SlashYearMonthDay => "%Y/%m/%d"
      case YearMonthDayTime => "%Y-%m-%d %H:%M:%S"
    }
  }

  const DateFormats: seq<DateFormat> :=
    [YearMonthDay, YearMonth, MonthDayYear, MonthDayShortYear, SlashYearMonthDay, YearMonthDayTime]

  /** `datetime.strptime(value, fmt)`: the datetime, or `None` where Python raises ValueError. */
  type DateMatcher = (string, DateFormat) -> Option<DateTime>

  /** The result of the first format in `formats` that matches, or `None`. */
  function FirstMatch(value: string, formats: seq<DateFormat>, strptime: DateMatcher): (r: Option<DateTime>)
    ensures r.None? <==> forall i :: 0 <= i < |formats| ==> strptime(value, formats[i]).None?
    ensures r.Some? ==> exists i :: 0 <= i < |formats| && strptime(value, formats[i]) == r
                                    && forall j :: 0 <= j < i ==> strptime(value, formats[j]).None?
  {
    if |formats| == 0 then None
    else
      match strptime(value, formats[0])
      case Some(d) => Some(d)
      case None =>
        var r := FirstMatch(value, formats[1..], strptime);
        assert forall i :: 1 <= i < |formats| ==> formats[i] == formats[1..][i - 1];
        assert r.Some? ==> exists i :: 0 <= i < |formats| && strptime(value, formats[i]) == r
                                       && forall j :: 0 <= j < i ==> strptime(value, formats[j]).None? by {
          if r.Some? {
            var i :| 0 <= i < |formats[1..]| && strptime(value, formats[1..][i]) == r
                     && forall j :: 0 <= j < i ==> strptime(value, formats[1..][j]).None?;
            assert strptime(value, formats[i + 1]) == r;
            assert forall j :: 0 <= j < i + 1 ==> strptime(value, formats[j]).None? by {
              forall j | 0 <= j < i + 1 ensures strptime(value, formats[j]).None? {
                if j > 0 { assert formats[j] == formats[1..][j - 1]; }
              }
            }
          }
        }
        r
  }

  /** `parse_date(value)`. */
  function ParseDate(value: string, strptime: DateMatcher): (r: Option<DateTime>)
    ensures r.None? <==> forall f :: f in DateFormats ==> strptime(value, f).None?
  {
    FirstMatch(value, DateFormats, strptime)
  }

  /** A value `strptime` reads under several formats gets the earliest format's reading. */
  lemma ParseDatePrefersEarlierFormat(value: string, strptime: DateMatcher, d: DateTime)
    requires strptime(value, YearMonthDay) == Some(d)
    ensures ParseDate(value, strptime) == Some(d)
  {
  }

  /** The dates parsed from a column's non-blank values, in row order. */
  function ParsedDates(values: seq<Value>, strptime: DateMatcher): seq<DateTime> {
    if |values| == 0 then []
    else ParsedDates(values[..|values| - 1], strptime) + DateOf(values[|values| - 1], strptime)
  }

  /** Only non-blank values are handed to the date parser, so at most that many dates come back. */
  lemma {:induction false} ParsedDatesBound(values: seq<Value>, strptime: DateMatcher)
    ensures |ParsedDates(values, strptime)| <= NonBlankCount(values)
  {
    if |values| > 0 {
      ParsedDatesBound(values[..|values| - 1], strptime);
    }
  }

  /** What one value adds to `parsed_dates`: nothing for a blank, else its parse if any. */
  function DateOf(v: Value, strptime: DateMatcher): (r: seq<DateTime>)
    ensures |r| <= 1
    ensures IsBlank(v) ==> r == []
  {
    if IsBlank(v) then [] else OptionToSeq(ParseDate(v.value, strptime))
  }

  /** `min(parsed_dates)`: the earliest date, the first of equals. */
  function MinDate(ds: seq<DateTime>): (m: DateTime)
    requires |ds| > 0
    ensures m in ds
    ensures forall i :: 0 <= i < |ds| ==> DateLe(m, ds[i])
  {
    if |ds| == 1 then ds[0]
    else
      var m := MinDate(ds[..|ds| - 1]);
      var last := ds[|ds| - 1];
      assert forall i :: 0 <= i < |ds| - 1 ==> ds[i] == ds[..|ds| - 1][i];
      DateLtTotal(last, m);
      if DateLt(last, m) then
        assert forall i :: 0 <= i < |ds| - 1 ==> DateLe(m, ds[i]) ==> DateLe(last, ds[i]) by {
          forall i | 0 <= i < |ds| - 1 && DateLe(m, ds[i]) ensures DateLe(last, ds[i]) {
            if DateLt(m, ds[i]) { DateLtTransitive(last, m, ds[i]); }
          }
        }
        last
      else m
  }

  /** `max(parsed_dates)`: the latest date, the first of equals. */
  function MaxDate(ds: seq<DateTime>): (m: DateTime)
    requires |ds| > 0
    ensures m in ds
    ensures forall i :: 0 <= i < |ds| ==> DateLe(ds[i], m)
  {
    if |ds| == 1 then ds[0]
    else
      var m := MaxDate(ds[..|ds| - 1]);
      var last := ds[|ds| - 1];
      assert forall i :: 0 <= i < |ds| - 1 ==> ds[i] == ds[..|ds| - 1][i];
      DateLtTotal(last, m);
      if DateLt(m, last) then
        assert forall i :: 0 <= i < |ds| - 1 ==> DateLe(ds[i], m) ==> DateLe(ds[i], last) by {
          forall i | 0 <= i < |ds| - 1 && DateLe(ds[i], m) ensures DateLe(ds[i], last) {
            if DateLt(ds[i], m) { DateLtTransitive(ds[i], m, last); }
          }
        }
        last
      else m
  }

  /** A detected date column: its range and the share of non-blank values that parsed. */
  datatype DateRange = DateRange(min: DateTime, max: DateTime, ratio: real)

  /** The 80% rule in integers: `parsed / nonBlank >= 0.8` exactly when `5 * parsed >= 4 * nonBlank`. */
  predicate MeetsDateRatio(parsed: nat, nonBlank: nat) {
    5 * parsed >= 4 * nonBlank
  }

  lemma RatioThreshold(parsed: nat, nonBlank: nat)
    requires 1 <= parsed <= nonBlank
    ensures parsed as real / nonBlank as real >= 0.8 <==> MeetsDateRatio(parsed, nonBlank)
    ensures parsed as real / nonBlank as real <= 1.0
    ensures (parsed as real / nonBlank as real) * nonBlank as real == parsed as real
  {
    QuotientTimesDivisor(parsed as real, nonBlank as real);
    RatioFacts(parsed as real / nonBlank as real, parsed as real, nonBlank as real);
  }

  lemma QuotientTimesDivisor(p: real, n: real)
    requires n > 0.0
    ensures (p / n) * n == p
  {
  }

  lemma MulLe(a: real, b: real, n: real)
    requires n > 0.0 && a <= b
    ensures a * n <= b * n
  {
  }

  lemma MulLt(a: real, b: real, n: real)
    requires n > 0.0 && a < b
    ensures a * n < b * n
  {
  }

  /** A quotient `q = p / n` with `p <= n` is at most one, and reaches 0.8 exactly when `5p >= 4n`. */
  lemma RatioFacts(q: real, p: real, n: real)
    requires n > 0.0 && q * n == p && p <= n
    ensures q >= 0.8 <==> 5.0 * p >= 4.0 * n
    ensures q <= 1.0
  {
    if q >= 0.8 {
      MulLe(0.8, q, n);
    } else {
      MulLt(q, 0.8, n);
    }
    if q <= 1.0 {
    } else {
      MulLt(1.0, q, n);
    }
  }

  /** The earliest and latest of a non-empty list of dates. */
  function RangeOf(parsed: seq<DateTime>, ratio: real): (r: DateRange)
    requires |parsed| > 0
    ensures DateLe(r.min, r.max)
    ensures r.min in parsed && r.max in parsed
    ensures forall d :: d in parsed ==> DateLe(r.min, d) && DateLe(d, r.max)
    ensures r.ratio == ratio
  {
    var lo, hi := MinDate(parsed), MaxDate(parsed);
    assert DateLe(lo, hi) by {
      var i :| 0 <= i < |parsed| && parsed[i] == hi;
      assert DateLe(lo, parsed[i]);
    }
    DateRange(lo, hi, ratio)
  }

  /**
   * The date-column rule of the summary script: a column is a date column when at
   * least one value parsed and the parsed share of non-blank values reaches 0.8;
   * it then reports the earliest and latest parsed dates.
   */
  function DateColumn(values: seq<Value>, strptime: DateMatcher): (r: Option<DateRange>)
    ensures r.Some? <==> |ParsedDates(values, strptime)| > 0
                         && MeetsDateRatio(|ParsedDates(values, strptime)|, NonBlankCount(values))
    ensures r.Some? ==> DateLe(r.value.min, r.value.max)
    ensures r.Some? ==> r.value.min in ParsedDates(values, strptime) && r.value.max in ParsedDates(values, strptime)
    ensures r.Some? ==> forall d :: d in ParsedDates(values, strptime) ==> DateLe(r.value.min, d) && DateLe(d, r.value.max)
    ensures r.Some? ==> 0.8 <= r.value.ratio <= 1.0
    ensures r.Some? ==> NonBlankCount(values) >= 1
                        && r.value.ratio == |ParsedDates(values, strptime)| as real / NonBlankCount(values) as real
  {
    var parsed := ParsedDates(values, strptime);
    if |parsed| == 0 then None
    else
      var nonBlank := NonBlankCount(values);
      ParsedDatesBound(values, strptime);
      var ratio := |parsed| as real / (if nonBlank > 1 then nonBlank else 1) as real;
      assert ratio == |parsed| as real / nonBlank as real;
      RatioThreshold(|parsed|, nonBlank);
      if ratio >= 0.8 then Some(RangeOf(parsed, ratio)) else None
  }

  /** Date collection distributes over concatenation, one value at a time. */
  lemma ParsedDatesSnoc(u: seq<Value>, v: Value, strptime: DateMatcher)
    ensures ParsedDates(u + [v], strptime) == ParsedDates(u, strptime) + DateOf(v, strptime)
  {
    assert (u + [v])[..|u|] == u;
  }

  lemma {:induction false} ParsedDatesAppend(s: seq<Value>, t: seq<Value>, strptime: DateMatcher)
    ensures ParsedDates(s + t, strptime) == ParsedDates(s, strptime) + ParsedDates(t, strptime)
  {
    if |t| == 0 {
      assert s + t == s;
    } else {
      var t', last := t[..|t| - 1], t[|t| - 1];
      assert t == t' + [last];
      assert s + t == (s + t') + [last];
      ParsedDatesAppend(s, t', strptime);
      ParsedDatesSnoc(s + t', last, strptime);
      ParsedDatesSnoc(t', last, strptime);
    }
  }

  /** Non-blank values are counted independently in each part. */
  lemma {:induction false} NonBlankCountAppend(s: seq<Value>, t: seq<Value>)
    ensures NonBlankCount(s + t) == NonBlankCount(s) + NonBlankCount(t)
  {
    if |t| == 0 {
      assert s + t == s;
    } else {
      var t' := t[..|t| - 1];
      NonBlankCountAppend(s, t');
      assert (s + t)[..|s + t| - 1] == s + t';
      assert (s + t)[|s + t| - 1] == t[|t| - 1];
    }
  }
}

/** The 80% boundary of the date-column rule on concrete columns. */
module DateRatioExamples {
  import opened Wrappers
  import opened SheetGrid
  import opened Inference

  function Repeat(v: Value, n: nat): (r: seq<Value>)
    ensures |r| == n
  {
    seq(n, _ => v)
  }

  lemma CountsOfAppend(s: seq<Value>, t: seq<Value>, strptime: DateMatcher)
    ensures |ParsedDates(s + t, strptime)| == |ParsedDates(s, strptime)| + |ParsedDates(t, strptime)|
    ensures NonBlankCount(s + t) == NonBlankCount(s) + NonBlankCount(t)
  {
    ParsedDatesAppend(s, t, strptime);
    NonBlankCountAppend(s, t);
  }

  lemma {:induction false} CountsOfRepeat(text: string, n: nat, strptime: DateMatcher)
    requires text != ""
    ensures NonBlankCount(Repeat(Some(text), n)) == n
    ensures |ParsedDates(Repeat(Some(text), n), strptime)| == if ParseDate(text, strptime).Some? then n else 0
  {
    if n > 0 {
      CountsOfRepeat(text, n - 1, strptime);
      assert Repeat(Some(text), n)[..n - 1] == Repeat(Some(text), n - 1);
    }
  }

  /** A matcher that reads "2024-01-31" as a year-month-day date and nothing else. */
  function OneDateMatcher(): DateMatcher {
    (s: string, f: DateFormat) => if s == "2024-01-31" && f == YearMonthDay then Some(DateTime(2024, 1, 31, 0, 0, 0)) else None
  }

  /** Eight dates among ten non-blank values meet the 0.8 boundary exactly; seven do not. */
  lemma EightOfTenIsDateColumn()
    ensures DateColumn(Repeat(Some("2024-01-31"), 8) + Repeat(Some("n/a"), 2), OneDateMatcher()).Some?
    ensures DateColumn(Repeat(Some("2024-01-31"), 7) + Repeat(Some("n/a"), 3), OneDateMatcher()).None?
  {
    var m := OneDateMatcher();
    assert ParseDate("2024-01-31", m).Some?;
    assert ParseDate("n/a", m).None?;
    CountsOfAppend(Repeat(Some("2024-01-31"), 8), Repeat(Some("n/a"), 2), m);
    CountsOfRepeat("2024-01-31", 8, m);
    CountsOfRepeat("n/a", 2, m);
    CountsOfAppend(Repeat(Some("2024-01-31"), 7), Repeat(Some("n/a"), 3), m);
    CountsOfRepeat("2024-01-31", 7, m);
    CountsOfRepeat("n/a", 3, m);
  }
}

=== FILE: samples_summary.dfy ===
/**
 * `analyze_je_samples.py`: the per-column profile of the journal-entry sample
 * sheet — row and column counts, missing values, detected date ranges and
 * numeric summaries.
 */
module SamplesSummary {
  import opened Wrappers
  import opened Errors
  import opened SheetGrid
  import opened Columns
  import opened Inference
  import opened Stats

  /** `sum(1 for value in values if value in (None, ""))`. */
  function MissingCount(values: seq<Value>): (n: nat)
    ensures n + NonBlankCount(values) == |values|
  {
    if |values| == 0 then 0
    else MissingCount(values[..|values| - 1]) + (if IsBlank(values[|values| - 1]) then 1 else 0)
  }

  /** A column has no missing value exactly when each of its values is non-blank. */
  lemma {:induction false} MissingCountZero(values: seq<Value>)
    ensures MissingCount(values) == 0 <==> forall i :: 0 <= i < |values| ==> !IsBlank(values[i])
  {
    if |values| > 0 {
      var p := values[..|values| - 1];
      MissingCountZero(p);
      assert (forall i :: 0 <= i < |values| ==> !IsBlank(values[i]))
        <==> (forall i :: 0 <= i < |p| ==> !IsBlank(p[i])) && !IsBlank(values[|values| - 1]);
    }
  }

  /** The profile written to `summary.json`. */
  datatype SampleSummary = SampleSummary(
    rowCount: nat,
    columnCount: nat,
    columns: seq<string>,
    missing: map<string, nat>,
    dateColumns: map<string, DateRange>,
    numericSummary: map<string, Summary>)

  /** `missing_values`. */
  function MissingMap(raw: map<string, seq<Value>>): (m: map<string, nat>)
    ensures m.Keys == raw.Keys
    ensures forall name :: name in m ==> m[name] <= |raw[name]|
  {
    map name | name in raw :: MissingCount(raw[name])
  }

  /** `date_columns`: the columns whose values mostly parse as dates. */
  function DateMap(raw: map<string, seq<Value>>, strptime: DateMatcher): (m: map<string, DateRange>)
    ensures m.Keys <= raw.Keys
    ensures forall name :: name in m ==> DateLe(m[name].min, m[name].max) && 0.8 <= m[name].ratio <= 1.0
  {
    map name | name in raw && DateColumn(raw[name], strptime).Some? :: DateColumn(raw[name], strptime).value
  }

  /** `numeric_summary`: the columns with at least one number, with their statistics. */
  function NumericMap(raw: map<string, seq<Value>>, parse: FloatParser): (m: map<string, Summary>)
    ensures m.Keys <= raw.Keys
    ensures forall name :: name in m ==> m[name].count >= 1 && m[name].mean.Some?
  {
    map name | name in raw && |CoercedValues(raw[name], parse)| > 0 :: NumericStats(CoercedValues(raw[name], parse))
  }

  /** `main` from the decoded rows on. */
  function Summarize(grid: Grid, parse: FloatParser, strptime: DateMatcher): (r: Result<SampleSummary, Error>)
    ensures r.Failure? <==> |grid| == 0
    ensures r.Failure? ==> r.error == EmptyGrid
    ensures r.Success? ==> r.value.rowCount == |grid| - 1
    ensures r.Success? ==> r.value.columnCount == |grid[0]| == |r.value.columns|
    ensures r.Success? ==> r.value.columns == HeaderNames(grid[0])
    ensures r.Success? ==> forall name :: name in r.value.missing <==> name in r.value.columns
    ensures r.Success? ==> r.value.dateColumns.Keys <= r.value.missing.Keys
    ensures r.Success? ==> r.value.numericSummary.Keys <= r.value.missing.Keys
    ensures r.Success? ==> forall name :: name in r.value.dateColumns ==>
      DateLe(r.value.dateColumns[name].min, r.value.dateColumns[name].max)
      && 0.8 <= r.value.dateColumns[name].ratio <= 1.0
    ensures r.Success? ==> forall name :: name in r.value.numericSummary ==> r.value.numericSummary[name].count >= 1
  {
    if |grid| == 0 then Failure(EmptyGrid)
    else
      var columns := HeaderNames(grid[0]);
      var rows := NormalizeRows(grid[1..], |grid[0]|);
      var raw := RawColumns(columns, rows);
      assert forall name :: name in raw <==> name in columns;
      Success(SampleSummary(|grid| - 1, |grid[0]|, columns, MissingMap(raw),
                            DateMap(raw, strptime), NumericMap(raw, parse)))
  }

  /**
   * The whole script from the archive: it always reads the fixed member
   * `xl/worksheets/sheet1.xml`, and a missing member surfaces before any profiling.
   */
  function SummarizeWorkbook(book: Workbook, parse: FloatParser, strptime: DateMatcher)
    : (r: Result<SampleSummary, Error>)
    ensures DefaultSheetPath !in book.sheets ==> r == Failure(MissingSheet(DefaultSheetPath))
    ensures r.Success? ==> DecodeSheet(book, DefaultSheetPath).Success?
                           && r.value.rowCount + 1 == |book.sheets[DefaultSheetPath]|
    ensures DecodeSheet(book, DefaultSheetPath).Failure? ==> r == Failure(DecodeSheet(book, DefaultSheetPath).error)
    ensures DecodeSheet(book, DefaultSheetPath).Success? ==>
      r == Summarize(DecodeSheet(book, DefaultSheetPath).value, parse, strptime)
  {
    var grid :- DecodeSheet(book, DefaultSheetPath);
    Summarize(grid, parse, strptime)
  }

  /** The `j`-th cell of every data row, `None` where the row is too short to reach it. */
  function CellsAt(grid: Grid, j: nat): (cells: seq<Value>)
    requires |grid| >= 1
    ensures |cells| == |grid| - 1
  {
    seq(|grid| - 1, i requires 0 <= i < |grid| - 1 => At(grid[i + 1], j))
  }

  lemma RawColumnIsCells(grid: Grid, j: nat)
    requires |grid| >= 1 && Distinct(HeaderNames(grid[0])) && j < |grid[0]|
    ensures HeaderNames(grid[0])[j] in RawColumns(HeaderNames(grid[0]), NormalizeRows(grid[1..], |grid[0]|))
    ensures RawColumns(HeaderNames(grid[0]), NormalizeRows(grid[1..], |grid[0]|))[HeaderNames(grid[0])[j]]
         == CellsAt(grid, j)
  {
    var rows := NormalizeRows(grid[1..], |grid[0]|);
    RawColumnsDistinct(HeaderNames(grid[0]), rows, j);
    var col := RawColumns(HeaderNames(grid[0]), rows)[HeaderNames(grid[0])[j]];
    forall i | 0 <= i < |grid| - 1 ensures col[i] == CellsAt(grid, j)[i] {
      assert rows[i] == NormalizeRow(grid[1..][i], |grid[0]|);
      assert grid[1..][i] == grid[i + 1];
    }
  }

  /**
   * With distinct headers, every entry of the profile is computed from exactly the
   * cells under that header: its missing count, whether it is a date column and with
   * what range, and whether it is numeric and with what statistics.
   */
  lemma SummaryColumn(grid: Grid, parse: FloatParser, strptime: DateMatcher, j: nat)
    requires |grid| >= 1 && Distinct(HeaderNames(grid[0])) && j < |grid[0]|
    ensures var s := Summarize(grid, parse, strptime).value;
      var name := HeaderNames(grid[0])[j];
      var cells := CellsAt(grid, j);
      && name in s.missing
      && s.missing[name] == MissingCount(cells)
      && (name in s.dateColumns <==> DateColumn(cells, strptime).Some?)
      && (name in s.dateColumns ==> s.dateColumns[name] == DateColumn(cells, strptime).value)
      && (name in s.numericSummary <==> exists i :: 0 <= i < |cells| && Coerce(cells[i], parse).Some?)
      && (name in s.numericSummary ==> s.numericSummary[name] == NumericStats(CoercedValues(cells, parse)))
  {
    RawColumnIsCells(grid, j);
    CoercedValuesEmpty(CellsAt(grid, j), parse);
  }

  /**
   * With duplicate headers the script's dictionary merges the columns, so a name's
   * missing count can reach the row count times the number of columns carrying it.
   */
  lemma MissingBound(grid: Grid, parse: FloatParser, strptime: DateMatcher, name: string)
    requires |grid| >= 1
    requires name in HeaderNames(grid[0])
    ensures var s := Summarize(grid, parse, strptime).value;
      name in s.missing && s.missing[name] <= s.rowCount * Occurrences(s.columns, name)
  {
    var columns := HeaderNames(grid[0]);
    var rows := NormalizeRows(grid[1..], |grid[0]|);
    RawColumnLength(columns, rows, name);
  }

  /** A two-column sheet with a blank second header and a short row. */
  lemma SummaryExample(parse: FloatParser, strptime: DateMatcher)
    ensures var s := Summarize([[Some("id"), None], [Some("1")], [None, Some("x")]], parse, strptime).value;
      && s.rowCount == 2 && s.columnCount == 2
      && s.columns == ["id", "Column2"]
      && s.missing.Keys == {"id", "Column2"}
      && s.missing["id"] == 1 && s.missing["Column2"] == 1
  {
    var grid: Grid := [[Some("id"), None], [Some("1")], [None, Some("x")]];
    ExampleHeaders(grid);
    ExampleCells(grid);
    SummaryColumn(grid, parse, strptime, 0);
    SummaryColumn(grid, parse, strptime, 1);
    ExampleKeys(Summarize(grid, parse, strptime).value.missing);
  }

  lemma ExampleHeaders(grid: Grid)
    requires grid == [[Some("id"), None], [Some("1")], [None, Some("x")]]
    ensures HeaderNames(grid[0]) == ["id", "Column2"] && Distinct(HeaderNames(grid[0]))
  {
    assert SynthName(1) == "Column2";
  }

  lemma ExampleKeys(missing: map<string, nat>)
    requires forall name :: name in missing <==> name in ["id", "Column2"]
    ensures missing.Keys == {"id", "Column2"}
  {
  }

  lemma ExampleCells(grid: Grid)
    requires grid == [[Some("id"), None], [Some("1")], [None, Some("x")]]
    ensures MissingCount(CellsAt(grid, 0)) == 1 && MissingCount(CellsAt(grid, 1)) == 1
  {
    var cells0 := CellsAt(grid, 0);
    var cells1 := CellsAt(grid, 1);
    assert cells0 == [Some("1"), None];
    assert cells1 == [None, Some("x")];
    assert cells0[..1] == [Some("1")];
    assert cells1[..1] == [None];
    assert cells0[..1][..0] == [];
    assert cells1[..1][..0] == [];
  }
}

=== FILE: sheet_grid.dfy ===
/**
 * The cell grid decoder of `parse_sheet`: from the cell records of one worksheet
 * and the shared-string table to rows of optional text values. The zip archive
 * and the XML parser are not modelled; the decoder starts from what they yield.
 */
module SheetGrid {
  import opened Wrappers
  import opened Errors
  import opened Decimal
  import opened ColumnRef

  /** A cell's text, `None` where Python holds `None`. */
  type Value = Option<string>
  type Row = seq<Value>
  type Grid = seq<Row>

  /**
   * One `<c>` element of a `<row>`: its `r` attribute, its `t` attribute and its
   * `<v>` child, which is `None` when the child is missing and `Some(None)` when
   * it is present without text.
   */
  datatype Cell = Cell(cellRef: Option<string>, cellType: Option<string>, valueElem: Option<Value>)

  /**
   * The archive as the decoder sees it: the entries of `xl/sharedStrings.xml`
   * (`None` when the archive has no such member) and each worksheet member's
   * rows of cells, in document order.
   */
  datatype Workbook = Workbook(sharedStrings: Option<seq<Value>>, sheets: map<string, seq<seq<Cell>>>)

  const DefaultSheetPath: string := "xl/worksheets/sheet1.xml"

  /** The `t` attribute that marks a shared-string reference. */
  const SharedStringType: string := "s"

  /** The table is empty when the archive has no shared-strings member. */
  function SharedTable(book: Workbook): seq<Value> {
    if book.sharedStrings.Some? then book.sharedStrings.value else []
  }

  /** A cell survives `if not cell_ref or value_elem is None: continue`. */
  predicate Kept(c: Cell) {
    c.cellRef.Some? && c.cellRef.value != "" && c.valueElem.Some?
  }

  /** The cells the loop does not skip, in document order. */
  function KeptCells(cells: seq<Cell>): (r: seq<Cell>)
    ensures |r| <= |cells|
    ensures forall j :: 0 <= j < |r| ==> Kept(r[j])
  {
    if |cells| == 0 then []
    else if Kept(cells[0]) then [cells[0]] + KeptCells(cells[1..])
    else KeptCells(cells[1..])
  }

  /** Filtering a concatenation filters each part, so the kept cells keep document order. */
  lemma {:induction false} KeptCellsAppend(a: seq<Cell>, b: seq<Cell>)
    ensures KeptCells(a + b) == KeptCells(a) + KeptCells(b)
  {
    if |a| > 0 {
      KeptCellsAppend(a[1..], b);
      assert (a + b)[1..] == a[1..] + b;
      assert (a + b)[0] == a[0];
    } else {
      assert a + b == b;
    }
  }

  /** One cell survives exactly when it is kept. */
  lemma KeptCellsOfCell(c: Cell)
    ensures KeptCells([c]) == if Kept(c) then [c] else []
  {
    assert [c][1..] == [];
  }

  /** A cell is among the kept cells exactly when it occurs in the row and is kept. */
  lemma {:induction false} KeptCellsMembers(cells: seq<Cell>, c: Cell)
    ensures c in KeptCells(cells) <==> c in cells && Kept(c)
  {
    if |cells| > 0 {
      KeptCellsMembers(cells[1..], c);
      assert cells == [cells[0]] + cells[1..];
    }
  }

  /** Python's `int(text)` for an optional sign followed by ASCII digits; anything else raises. */
  function ParseInt(text: string): (r: Option<int>)
    ensures r.Some? <==> (|text| > 0 && AllDigits(text))
                         || (|text| > 1 && (text[0] == '-' || text[0] == '+') && AllDigits(text[1..]))
    ensures AllDigits(text) && |text| > 0 ==> r == Some(DigitsValue(text))
    ensures |text| > 1 && text[0] == '-' && AllDigits(text[1..]) ==> r == Some(-(DigitsValue(text[1..]) as int))
    ensures |text| > 1 && text[0] == '+' && AllDigits(text[1..]) ==> r == Some(DigitsValue(text[1..]))
  {
    if |text| > 1 && (text[0] == '-' || text[0] == '+') && AllDigits(text[1..]) then
      var magnitude: int := DigitsValue(text[1..]);
      Some(if text[0] == '-' then -magnitude else magnitude)
    else if |text| > 0 && AllDigits(text) then
      Some(DigitsValue(text))
    else
      None
  }

  /** The decimal spelling of a table position parses back to that position. */
  lemma ParseIntOfNatToString(n: nat)
    ensures ParseInt(NatToString(n)) == Some(n)
  {
    DigitsValueOfNatToString(n);
  }

  /** A minus sign before a decimal spelling parses to the negated number. */
  lemma ParseIntOfNegated(n: nat)
    ensures ParseInt("-" + NatToString(n)) == Some(-(n as int))
  {
    var text := "-" + NatToString(n);
    assert text[1..] == NatToString(n);
    DigitsValueOfNatToString(n);
  }

  /** Python's `s[i]`: negative indices count back from the end; anything else raises IndexError. */
  function PyIndex<T>(s: seq<T>, i: int): (r: Option<T>)
    ensures r.Some? <==> -|s| <= i < |s|
    ensures 0 <= i < |s| ==> r == Some(s[i])
    ensures -|s| <= i < 0 ==> r == Some(s[|s| + i])
  {
    if 0 <= i < |s| then Some(s[i])
    else if -|s| <= i < 0 then Some(s[|s| + i])
    else None
  }

  /** The value a kept cell contributes: its raw text, or the shared string its text indexes. */
  function CellValue(c: Cell, shared: seq<Value>): (r: Result<Value, Error>)
    requires Kept(c)
    ensures c.cellType != Some(SharedStringType) || c.valueElem.value.None? ==> r == Success(c.valueElem.value)
    ensures c.cellType == Some(SharedStringType) && c.valueElem.value.Some? ==>
      (r.Failure? <==> ParseInt(c.valueElem.value.value).None?
                       || !(-|shared| <= ParseInt(c.valueElem.value.value).value < |shared|))
    ensures r.Failure? ==> r.error.SharedIndexNotInteger? || r.error.SharedIndexOutOfRange?
  {
    var text := c.valueElem.value;
    if c.cellType == Some(SharedStringType) && text.Some? then
      match ParseInt(text.value)
      case None => Failure(SharedIndexNotInteger(text.value))
      case Some(i) =>
        match PyIndex(shared, i)
        case None => Failure(SharedIndexOutOfRange(i))
        case Some(s) => Success(s)
    else
      Success(text)
  }

  /** A shared-string cell whose text spells a table position yields the string stored there. */
  lemma SharedStringDereference(c: Cell, shared: seq<Value>, n: nat)
    requires Kept(c) && c.cellType == Some(SharedStringType)
    requires c.valueElem.value == Some(NatToString(n)) && n < |shared|
    ensures CellValue(c, shared) == Success(shared[n])
  {
    ParseIntOfNatToString(n);
  }

  /** A successful lookup yields the table entry at the parsed index, taken as Python indexes lists. */
  lemma SharedStringLookup(c: Cell, shared: seq<Value>)
    requires Kept(c) && c.cellType == Some(SharedStringType) && c.valueElem.value.Some?
    ensures CellValue(c, shared).Success? ==>
      ParseInt(c.valueElem.value.value).Some?
      && PyIndex(shared, ParseInt(c.valueElem.value.value).value) == Some(CellValue(c, shared).value)
  {
  }

  /** A negative shared-string index counts back from the end of the table, as Python list indexing does. */
  lemma SharedStringWraps(c: Cell, shared: seq<Value>, n: nat)
    requires Kept(c) && c.cellType == Some(SharedStringType)
    requires c.valueElem.value == Some("-" + NatToString(n)) && 1 <= n <= |shared|
    ensures CellValue(c, shared) == Success(shared[|shared| - n])
  {
    ParseIntOfNegated(n);
  }

  /** An assignment `cells[column] = value`, or an entry of the resulting dict. */
  type Entry = (int, Value)

  /**
   * The assignments the cell loop performs, in document order: one per kept cell,
   * or the first error a shared-string lookup raises.
   */
  function Writes(cells: seq<Cell>, shared: seq<Value>): (r: Result<seq<Entry>, Error>)
    ensures r.Success? ==> |r.value| == |KeptCells(cells)|
    ensures r.Success? ==> forall j :: 0 <= j < |r.value| ==>
      r.value[j].0 == ColumnIndex(KeptCells(cells)[j].cellRef.value)
      && CellValue(KeptCells(cells)[j], shared) == Success(r.value[j].1)
    ensures r.Failure? <==> exists j :: 0 <= j < |KeptCells(cells)| && CellValue(KeptCells(cells)[j], shared).Failure?
    ensures r.Failure? ==> r.error.SharedIndexNotInteger? || r.error.SharedIndexOutOfRange?
  {
    if |cells| == 0 then Success([])
    else if !Kept(cells[0]) then
      assert KeptCells(cells) == KeptCells(cells[1..]);
      Writes(cells[1..], shared)
    else
      var kept := KeptCells(cells);
      assert kept == [cells[0]] + KeptCells(cells[1..]);
      assert forall j :: 1 <= j < |kept| ==> kept[j] == KeptCells(cells[1..])[j - 1];
      assert kept[0] == cells[0];
      assert forall j :: 0 <= j < |KeptCells(cells[1..])| ==> kept[j + 1] == KeptCells(cells[1..])[j];
      var v :- CellValue(cells[0], shared);
      var rest :- Writes(cells[1..], shared);
      Success([(ColumnIndex(cells[0].cellRef.value), v)] + rest)
  }

  function Keys(d: seq<Entry>): set<int> {
    set j | 0 <= j < |d| :: d[j].0
  }

  predicate DistinctKeys(d: seq<Entry>) {
    forall i, j :: 0 <= i < j < |d| ==> d[i].0 != d[j].0
  }

  /** `d.get(k)` on a dict held as its items in insertion order. */
  function Lookup(d: seq<Entry>, k: int): Option<Value> {
    if |d| == 0 then None
    else if d[0].0 == k then Some(d[0].1)
    else Lookup(d[1..], k)
  }

  /**
   * `d[k] = v` on a Python dict: an existing key keeps its place in the iteration
   * order and takes the new value; a new key goes to the end.
   */
  function Put(d: seq<Entry>, k: int, v: Value): seq<Entry> {
    if |d| == 0 then [(k, v)]
    else if d[0].0 == k then [(k, v)] + d[1..]
    else [d[0]] + Put(d[1..], k, v)
  }

  /** The dict `cells` the loop builds from its assignments, in Python's iteration order. */
  function BuildDict(w: seq<Entry>): seq<Entry> {
    if |w| == 0 then [] else Put(BuildDict(w[..|w| - 1]), w[|w| - 1].0, w[|w| - 1].1)
  }

  /** The value of the last assignment to column `k`, if there is one. */
  function LastWrite(w: seq<Entry>, k: int): Option<Value> {
    if |w| == 0 then None
    else if w[|w| - 1].0 == k then Some(w[|w| - 1].1)
    else LastWrite(w[..|w| - 1], k)
  }

  /** `max(keys, default=-1)`. */
  function MaxKey(d: seq<Entry>): (m: int)
    ensures forall j :: 0 <= j < |d| ==> d[j].0 <= m
    ensures |d| > 0 ==> exists j :: 0 <= j < |d| && d[j].0 == m
    ensures |d| == 0 ==> m == -1
  {
    if |d| == 0 then -1
    else if |d| == 1 then d[0].0
    else
      var m := MaxKey(d[1..]);
      assert forall j :: 1 <= j < |d| ==> d[j] == d[1..][j - 1];
      if d[0].0 >= m then d[0].0 else m
  }

  /** `[None] * n` (empty for n <= 0). */
  function Nones(n: int): (r: Row)
    ensures |r| == (if n > 0 then n else 0)
    ensures forall i :: 0 <= i < |r| ==> r[i].None?
  {
    seq(if n > 0 then n else 0, _ => None)
  }

  /** `for idx, value in cells.items(): row_values[idx] = value`, with Python's list indexing. */
  function Fill(row: Row, d: seq<Entry>): (r: Result<Row, Error>)
    ensures r.Success? ==> |r.value| == |row|
    ensures r.Failure? ==> r.error.CellIndexOutOfRange?
    ensures r.Success? <==> forall j :: 0 <= j < |d| ==> -|row| <= d[j].0 < |row|
    decreases |d|
  {
    if |d| == 0 then Success(row)
    else
      var (k, v) := d[0];
      if 0 <= k < |row| then Fill(row[k := v], d[1..])
      else if -|row| <= k < 0 then Fill(row[|row| + k := v], d[1..])
      else Failure(CellIndexOutOfRange(k))
  }

  /** The row the loop materialises from its assignments: `[None] * (max_index + 1)`, then filled. */
  function Materialize(w: seq<Entry>): Result<Row, Error> {
    var d := BuildDict(w);
    Fill(Nones(MaxKey(d) + 1), d)
  }

  /** One `<row>` of the worksheet as `parse_sheet` appends it to `rows`. */
  function AssembleRow(cells: seq<Cell>, shared: seq<Value>): (r: Result<Row, Error>)
    ensures r.Failure? ==> !r.error.MissingSheet?
    ensures Writes(cells, shared).Failure? ==> r.Failure?
    ensures Writes(cells, shared).Success? && NonNegativeKeys(Writes(cells, shared).value)
      ==> r == Success(RowSpec(Writes(cells, shared).value))
    ensures Writes(cells, shared).Success? ==>
      var w := Writes(cells, shared).value;
      (r.Failure? <==> |w| > 0 && MaxKey(w) == -1)
      && (r.Success? ==> |r.value| == MaxKey(w) + 1)
  {
    var w :- Writes(cells, shared);
    MaterializeMeetsSpec(w);
    MaterializeOutcome(w);
    Materialize(w)
  }

  /**
   * With every column at least −1 (a letterless reference), the row fails only when
   * all columns are −1: `[None] * 0` has no slot for `row_values[-1]`. Otherwise the
   * row is as wide as the largest column plus one, and −1 writes its last slot.
   */
  lemma MaterializeOutcome(w: seq<Entry>)
    requires forall j :: 0 <= j < |w| ==> w[j].0 >= -1
    ensures Materialize(w).Failure? <==> |w| > 0 && MaxKey(w) == -1
    ensures Materialize(w).Success? ==> |Materialize(w).value| == MaxKey(w) + 1
  {
    var d := BuildDict(w);
    BuildDictFacts(w);
    MaxKeyOfSameKeys(d, w);
    var m := MaxKey(w);
    forall j | 0 <= j < |d| ensures -1 <= d[j].0 <= m {
      assert d[j].0 in Keys(w);
      var i :| 0 <= i < |w| && w[i].0 == d[j].0;
    }
    assert |w| > 0 ==> w[0].0 in Keys(d);
  }

  predicate NonNegativeKeys(w: seq<Entry>) {
    forall j :: 0 <= j < |w| ==> w[j].0 >= 0
  }

  /**
   * The row the assignments describe, stated without dicts: as long as the largest
   * column plus one, each column holding the last value assigned to it, `None` elsewhere.
   */
  function RowSpec(w: seq<Entry>): Row {
    seq(if MaxKey(w) + 1 > 0 then MaxKey(w) + 1 else 0,
        i => match LastWrite(w, i) case Some(v) => v case None => None)
  }

  // ---------------------------------------------------------------------------
  // Dict lemmas

  lemma KeysCons(d: seq<Entry>)
    requires |d| > 0
    ensures Keys(d) == {d[0].0} + Keys(d[1..])
  {
    forall x | x in Keys(d) ensures x in {d[0].0} + Keys(d[1..]) {
      var j :| 0 <= j < |d| && d[j].0 == x;
      if j > 0 { assert d[1..][j - 1].0 == x; }
    }
    forall x | x in Keys(d[1..]) ensures x in Keys(d) {
      var j :| 0 <= j < |d[1..]| && d[1..][j].0 == x;
      assert d[j + 1].0 == x;
    }
  }

  lemma KeysSnoc(p: seq<Entry>, e: Entry)
    ensures Keys(p + [e]) == Keys(p) + {e.0}
  {
    var w := p + [e];
    forall x | x in Keys(w) ensures x in Keys(p) + {e.0} {
      var j :| 0 <= j < |w| && w[j].0 == x;
      if j < |p| { assert p[j].0 == x; }
    }
    forall x | x in Keys(p) ensures x in Keys(w) {
      var j :| 0 <= j < |p| && p[j].0 == x;
      assert w[j].0 == x;
    }
    assert w[|p|].0 == e.0;
  }

  /** A lookup finds a value exactly for the keys the dict holds. */
  lemma {:induction false} LookupKeys(d: seq<Entry>, k: int)
    ensures Lookup(d, k).Some? <==> k in Keys(d)
  {
    if |d| > 0 {
      KeysCons(d);
      LookupKeys(d[1..], k);
    }
  }

  /** In a dict with distinct keys, the first key does not occur again. */
  lemma NotInTail(d: seq<Entry>)
    requires |d| > 0 && DistinctKeys(d)
    ensures d[0].0 !in Keys(d[1..])
  {
    forall j | 0 <= j < |d[1..]| ensures d[1..][j].0 != d[0].0 {
      assert d[1..][j] == d[j + 1];
    }
  }

  lemma {:induction false} LookupPut(d: seq<Entry>, k: int, v: Value, k': int)
    ensures Lookup(Put(d, k, v), k') == if k' == k then Some(v) else Lookup(d, k')
  {
    if |d| > 0 && d[0].0 != k {
      LookupPut(d[1..], k, v, k');
    }
  }

  lemma {:induction false} PutKeys(d: seq<Entry>, k: int, v: Value)
    ensures Keys(Put(d, k, v)) == Keys(d) + {k}
  {
    if |d| == 0 {
      assert Put(d, k, v)[0].0 == k;
    } else if d[0].0 == k {
      KeysCons(d);
      KeysCons(Put(d, k, v));
      assert Put(d, k, v)[1..] == d[1..];
    } else {
      PutKeys(d[1..], k, v);
      KeysCons(d);
      KeysCons(Put(d, k, v));
      assert Put(d, k, v)[1..] == Put(d[1..], k, v);
    }
  }

  lemma {:induction false} PutDistinct(d: seq<Entry>, k: int, v: Value)
    requires DistinctKeys(d)
    ensures DistinctKeys(Put(d, k, v))
  {
    if |d| > 0 && d[0].0 != k {
      PutDistinct(d[1..], k, v);
      var t := Put(d[1..], k, v);
      PutKeys(d[1..], k, v);
      KeysCons(d);
      NotInTail(d);
      var r := [d[0]] + t;
      forall i, j | 0 <= i < j < |r| ensures r[i].0 != r[j].0 {
        if i == 0 {
          assert r[j].0 == t[j - 1].0;
          assert t[j - 1].0 in Keys(t);
        }
      }
    } else if |d| > 0 {
      var r := [(k, v)] + d[1..];
      forall i, j | 0 <= i < j < |r| ensures r[i].0 != r[j].0 {
        assert r[j] == d[j];
        if i > 0 { assert r[i] == d[i]; }
      }
    }
  }

  lemma {:induction false} BuildDictFacts(w: seq<Entry>)
    ensures DistinctKeys(BuildDict(w))
    ensures Keys(BuildDict(w)) == Keys(w)
    ensures forall k :: Lookup(BuildDict(w), k) == LastWrite(w, k)
  {
    if |w| > 0 {
      var p, e := w[..|w| - 1], w[|w| - 1];
      BuildDictFacts(p);
      PutDistinct(BuildDict(p), e.0, e.1);
      PutKeys(BuildDict(p), e.0, e.1);
      forall k ensures Lookup(BuildDict(w), k) == LastWrite(w, k) {
        LookupPut(BuildDict(p), e.0, e.1, k);
      }
      assert w == p + [e];
      KeysSnoc(p, e);
    }
  }

  /** `max` of a dict's keys depends on nothing but the key set. */
  lemma MaxKeyOfSameKeys(a: seq<Entry>, b: seq<Entry>)
    requires Keys(a) == Keys(b)
    ensures MaxKey(a) == MaxKey(b)
  {
    assert |a| > 0 ==> a[0].0 in Keys(a);
    assert |b| > 0 ==> b[0].0 in Keys(b);
    if |a| > 0 {
      var ma, mb := MaxKey(a), MaxKey(b);
      var i :| 0 <= i < |a| && a[i].0 == ma;
      var j :| 0 <= j < |b| && b[j].0 == mb;
      assert ma in Keys(a);
      var i' :| 0 <= i' < |b| && b[i'].0 == ma;
      assert mb in Keys(b);
      var j' :| 0 <= j' < |a| && a[j'].0 == mb;
    }
  }

  /** The row a dict with distinct keys paints over `row`. */
  function Overlay(row: Row, d: seq<Entry>): Row {
    seq(|row|, i requires 0 <= i < |row| => match Lookup(d, i) case Some(v) => v case None => row[i])
  }

  lemma {:induction false} FillOverlay(row: Row, d: seq<Entry>)
    requires DistinctKeys(d)
    requires forall j :: 0 <= j < |d| ==> 0 <= d[j].0 < |row|
    ensures Fill(row, d) == Success(Overlay(row, d))
    decreases |d|
  {
    if |d| > 0 {
      var (k, v) := d[0];
      var row' := row[k := v];
      NotInTail(d);
      LookupKeys(d[1..], k);
      FillOverlay(row', d[1..]);
      assert Fill(row, d) == Fill(row', d[1..]);
      forall i | 0 <= i < |row| ensures Overlay(row', d[1..])[i] == Overlay(row, d)[i] {
        if i == k {
          assert Lookup(d[1..], k).None?;
        } else {
          assert Lookup(d, i) == Lookup(d[1..], i);
        }
      }
      assert Overlay(row', d[1..]) == Overlay(row, d);
    } else {
      assert Overlay(row, d) == row;
    }
  }

  lemma DictKeysInRange(w: seq<Entry>)
    requires NonNegativeKeys(w)
    ensures forall j :: 0 <= j < |BuildDict(w)| ==> 0 <= BuildDict(w)[j].0 <= MaxKey(w)
  {
    var d := BuildDict(w);
    BuildDictFacts(w);
    forall j | 0 <= j < |d| ensures 0 <= d[j].0 <= MaxKey(w) {
      assert d[j].0 in Keys(w);
      var i :| 0 <= i < |w| && w[i].0 == d[j].0;
    }
  }

  /** The dict-and-list construction computes the row `RowSpec` describes. */
  lemma MaterializeMeetsSpec(w: seq<Entry>)
    ensures NonNegativeKeys(w) ==> Materialize(w) == Success(RowSpec(w))
  {
    if NonNegativeKeys(w) {
      var d := BuildDict(w);
      BuildDictFacts(w);
      MaxKeyOfSameKeys(d, w);
      DictKeysInRange(w);
      var row := Nones(MaxKey(w) + 1);
      FillOverlay(row, d);
      var spec := RowSpec(w);
      assert |row| == |spec|;
      forall i | 0 <= i < |row| ensures Overlay(row, d)[i] == spec[i] {
        assert Lookup(d, i) == LastWrite(w, i);
      }
      assert Overlay(row, d) == spec;
    }
  }

  // ---------------------------------------------------------------------------
  // Properties of rows

  /** A row is exactly as long as its largest decoded column plus one, and empty without cells. */
  lemma RowSpecLength(w: seq<Entry>)
    requires NonNegativeKeys(w)
    ensures |w| == 0 ==> RowSpec(w) == []
    ensures |w| > 0 ==> |RowSpec(w)| == MaxKey(w) + 1
    ensures |w| > 0 ==> exists j :: 0 <= j < |w| && w[j].0 == |RowSpec(w)| - 1
  {
  }

  /** `LastWrite` is the value of the latest assignment to a column. */
  lemma {:induction false} LastWriteIsLatest(w: seq<Entry>, k: int, j: int)
    requires 0 <= j < |w| && w[j].0 == k
    requires forall j' :: j < j' < |w| ==> w[j'].0 != k
    ensures LastWrite(w, k) == Some(w[j].1)
  {
    if j < |w| - 1 {
      LastWriteIsLatest(w[..|w| - 1], k, j);
    }
  }

  lemma {:induction false} LastWriteNone(w: seq<Entry>, k: int)
    requires forall j :: 0 <= j < |w| ==> w[j].0 != k
    ensures LastWrite(w, k).None?
  {
    if |w| > 0 {
      LastWriteNone(w[..|w| - 1], k);
    }
  }

  /**
   * Position `i` of a row holds the value of the last cell that decodes to `i`
   * (a later cell for the same column wins), and `None` when no cell does.
   */
  lemma RowSpecCell(w: seq<Entry>, i: nat)
    requires NonNegativeKeys(w)
    requires i < |RowSpec(w)|
    ensures (forall j :: 0 <= j < |w| ==> w[j].0 != i) ==> RowSpec(w)[i].None?
    ensures forall j :: (0 <= j < |w| && w[j].0 == i && (forall j' :: j < j' < |w| ==> w[j'].0 != i)
                         ==> RowSpec(w)[i] == w[j].1)
  {
    if forall j :: 0 <= j < |w| ==> w[j].0 != i {
      LastWriteNone(w, i);
    }
    forall j | 0 <= j < |w| && w[j].0 == i && (forall j' :: j < j' < |w| ==> w[j'].0 != i)
      ensures RowSpec(w)[i] == w[j].1
    {
      LastWriteIsLatest(w, i, j);
    }
  }

  /** Cells without a reference or a value node change nothing: the row is built from the kept cells alone. */
  lemma {:induction false} SkippedCellsIgnored(cells: seq<Cell>, shared: seq<Value>)
    ensures Writes(cells, shared) == Writes(KeptCells(cells), shared)
    ensures AssembleRow(cells, shared) == AssembleRow(KeptCells(cells), shared)
  {
    if |cells| > 0 {
      SkippedCellsIgnored(cells[1..], shared);
      if Kept(cells[0]) {
        var kept := KeptCells(cells);
        assert kept[1..] == KeptCells(cells[1..]);
        KeptCellsIdempotent(cells[1..]);
      }
    }
    KeptCellsIdempotent(cells);
  }

  lemma {:induction false} KeptCellsIdempotent(cells: seq<Cell>)
    ensures KeptCells(KeptCells(cells)) == KeptCells(cells)
  {
    if |cells| > 0 {
      KeptCellsIdempotent(cells[1..]);
      if Kept(cells[0]) {
        assert KeptCells(cells)[1..] == KeptCells(cells[1..]);
      }
    }
  }

  /**
   * A reference without letters decodes to -1, and Python's `row_values[-1] = value`
   * writes it into the last position of the row, or raises on an empty row.
   */
  lemma LetterlessReferenceExamples()
    ensures AssembleRow([Cell(Some("7"), None, Some(Some("x")))], []) == Failure(CellIndexOutOfRange(-1))
    ensures AssembleRow([Cell(Some("C1"), None, Some(Some("x"))), Cell(Some("1"), None, Some(Some("y")))], [])
      == Success([None, None, Some("y")])
  {
    LetterlessReferenceAlone();
    LetterlessReferenceAfterWrite();
  }

  /** A lone letterless cell writes to column -1 of the empty row `[None] * 0`. */
  lemma LetterlessReferenceAlone()
    ensures AssembleRow([Cell(Some("7"), None, Some(Some("x")))], []) == Failure(CellIndexOutOfRange(-1))
  {
    ColumnIndexExamplesMore();
    var c0 := Cell(Some("7"), None, Some(Some("x")));
    assert Kept(c0) && CellValue(c0, []) == Success(Some("x")) && [c0][1..] == [];
    assert Writes([c0], []) == Success([(-1, Some("x"))] + []);
    assert BuildDict([(-1, Some("x"))]) == [(-1, Some("x"))];
  }

  /** After a write to column C, a letterless cell lands in the last of the three slots. */
  lemma LetterlessReferenceAfterWrite()
    ensures AssembleRow([Cell(Some("C1"), None, Some(Some("x"))), Cell(Some("1"), None, Some(Some("y")))], [])
      == Success([None, None, Some("y")])
  {
    ColumnIndexExamplesMore();
    var c1, c2 := Cell(Some("C1"), None, Some(Some("x"))), Cell(Some("1"), None, Some(Some("y")));
    assert Kept(c1) && CellValue(c1, []) == Success(Some("x")) && [c1, c2][1..] == [c2];
    assert Kept(c2) && CellValue(c2, []) == Success(Some("y")) && [c2][1..] == [];
    assert Writes([c2], []) == Success([(-1, Some("y"))] + []);
    assert [(-1, Some("y"))] + [] == [(-1, Some("y"))];
    var w: seq<Entry> := [(2, Some("x")), (-1, Some("y"))];
    assert Writes([c1, c2], []) == Success([(2, Some("x"))] + [(-1, Some("y"))]);
    assert w[..1] == [(2, Some("x"))] && [(2, Some("x"))][1..] == [];
    assert BuildDict(w) == w;
    var row := [None, None, None];
    assert Nones(3) == row;
    assert w[1..] == [(-1, Some("y"))] && |w[1..][1..]| == 0;
    assert row[2 := Some("x")][2 := Some("y")] == [None, None, Some("y")];
  }

  /** Decodes every row of one worksheet, failing on the first row that raises. */
  function AssembleRows(rows: seq<seq<Cell>>, shared: seq<Value>): (r: Result<Grid, Error>)
    ensures r.Success? ==> |r.value| == |rows|
    ensures r.Success? ==> forall i :: 0 <= i < |rows| ==> AssembleRow(rows[i], shared) == Success(r.value[i])
    ensures r.Failure? <==> exists i :: 0 <= i < |rows| && AssembleRow(rows[i], shared).Failure?
    ensures r.Failure? ==> !r.error.MissingSheet?
  {
    if |rows| == 0 then Success([])
    else
      var first :- AssembleRow(rows[0], shared);
      var rest :- AssembleRows(rows[1..], shared);
      assert forall i :: 1 <= i < |rows| ==> rows[i] == rows[1..][i - 1];
      Success([first] + rest)
  }

  /** `parse_sheet(path, sheet_path)`: the grid of one worksheet, or the error the decoder raises. */
  function DecodeSheet(book: Workbook, sheetPath: string): (r: Result<Grid, Error>)
    ensures sheetPath !in book.sheets <==> r == Failure(MissingSheet(sheetPath))
    ensures sheetPath in book.sheets ==>
      (r.Failure? <==> exists i :: 0 <= i < |book.sheets[sheetPath]|
                                   && AssembleRow(book.sheets[sheetPath][i], SharedTable(book)).Failure?)
    ensures r.Success? ==> |r.value| == |book.sheets[sheetPath]|
    ensures r.Success? ==> forall i :: 0 <= i < |r.value| ==>
      AssembleRow(book.sheets[sheetPath][i], SharedTable(book)) == Success(r.value[i])
  {
    if sheetPath !in book.sheets then Failure(MissingSheet(sheetPath))
    else
      AssembleRows(book.sheets[sheetPath], SharedTable(book))
  }
}

=== FILE: stats.dfy ===
/**
 * `numeric_stats`: count, mean, sample variance, minimum and maximum of a column's
 * numbers, over exact reals. The standard deviation is the square root of the
 * variance and is not computed here.
 */
module Stats {
  import opened Wrappers

  /** The summary record; the optional fields are `None` exactly when there is no data. */
  datatype Summary = Summary(count: nat, mean: Option<real>, variance: Option<real>, min: Option<real>, max: Option<real>)

  /** `sum(values)`, added left to right. */
  function Sum(s: seq<real>): real {
    if |s| == 0 then 0.0 else Sum(s[..|s| - 1]) + s[|s| - 1]
  }

  function Square(x: real): (y: real)
    ensures y >= 0.0
  {
    x * x
  }

  /** `sum((value - mean) ** 2 for value in values)`. */
  function SumSquaredDeviations(s: seq<real>, mean: real): (r: real)
    ensures r >= 0.0
  {
    if |s| == 0 then 0.0 else SumSquaredDeviations(s[..|s| - 1], mean) + Square(s[|s| - 1] - mean)
  }

  /** Python's `min(values)`: a later value replaces the running minimum only when strictly smaller. */
  function MinOf(s: seq<real>): (m: real)
    requires |s| > 0
    ensures m in s
    ensures forall i :: 0 <= i < |s| ==> m <= s[i]
  {
    if |s| == 1 then s[0]
    else
      var m := MinOf(s[..|s| - 1]);
      assert forall i :: 0 <= i < |s| - 1 ==> s[i] == s[..|s| - 1][i];
      if s[|s| - 1] < m then s[|s| - 1] else m
  }

  /** Python's `max(values)`. */
  function MaxOf(s: seq<real>): (m: real)
    requires |s| > 0
    ensures m in s
    ensures forall i :: 0 <= i < |s| ==> s[i] <= m
  {
    if |s| == 1 then s[0]
    else
      var m := MaxOf(s[..|s| - 1]);
      assert forall i :: 0 <= i < |s| - 1 ==> s[i] == s[..|s| - 1][i];
      if s[|s| - 1] > m then s[|s| - 1] else m
  }

  /** The sum lies between count times any lower bound and count times any upper bound. */
  lemma {:induction false} SumBounds(s: seq<real>, lo: real, hi: real)
    requires forall i :: 0 <= i < |s| ==> lo <= s[i] <= hi
    ensures |s| as real * lo <= Sum(s) <= |s| as real * hi
  {
    if |s| > 0 {
      SumBounds(s[..|s| - 1], lo, hi);
    }
  }

  lemma MeanBetween(total: real, n: nat, lo: real, hi: real)
    requires n >= 1 && n as real * lo <= total <= n as real * hi
    ensures lo <= total / n as real <= hi
  {
    var mean := total / n as real;
    assert mean * n as real == total;
  }

  /** `sum(values) / count`: the mean lies between the smallest and the largest value. */
  function Mean(values: seq<real>): (mean: real)
    requires |values| >= 1
    ensures mean * |values| as real == Sum(values)
    ensures MinOf(values) <= mean <= MaxOf(values)
  {
    SumBounds(values, MinOf(values), MaxOf(values));
    MeanBetween(Sum(values), |values|, MinOf(values), MaxOf(values));
    Sum(values) / |values| as real
  }

  /** The sample variance: squared deviations over `count - 1`, and 0 for a single value. */
  function SampleVariance(values: seq<real>, mean: real): (v: real)
    requires |values| >= 1
    ensures v >= 0.0
    ensures |values| == 1 ==> v == 0.0
    ensures |values| >= 2 ==> v * (|values| - 1) as real == SumSquaredDeviations(values, mean)
  {
    if |values| > 1 then SumSquaredDeviations(values, mean) / (|values| - 1) as real else 0.0
  }

  /** `numeric_stats(values)`. */
  function NumericStats(values: seq<real>): (r: Summary)
    ensures r.count == |values|
    ensures r.count == 0 <==> r.mean.None?
    ensures r.mean.None? <==> r.variance.None? && r.min.None? && r.max.None?
    ensures r.count >= 1 ==> r.mean.Some? && r.variance.Some? && r.min.Some? && r.max.Some?
    ensures r.count >= 1 ==> r.mean.value * r.count as real == Sum(values)
    ensures r.count >= 1 ==> r.min.value <= r.mean.value <= r.max.value
    ensures r.count >= 1 ==> r.min.value in values && r.max.value in values
    ensures r.count >= 1 ==> forall i :: 0 <= i < |values| ==> r.min.value <= values[i] <= r.max.value
    ensures r.count == 1 ==> r.variance == Some(0.0)
    ensures r.count >= 2 ==> r.variance.value * (r.count - 1) as real == SumSquaredDeviations(values, r.mean.value)
    ensures r.count >= 1 ==> r.variance.value >= 0.0
  {
    if |values| == 0 then Summary(0, None, None, None, None)
    else
      var mean := Mean(values);
      Summary(|values|, Some(mean), Some(SampleVariance(values, mean)), Some(MinOf(values)), Some(MaxOf(values)))
  }

  lemma SquarePositive(x: real)
    requires x != 0.0
    ensures Square(x) > 0.0
  {
    if x > 0.0 {
      calc {
        Square(x);
      ==
        x * x;
      >  { assert x * x > 0.0 * x; }
        0.0;
      }
    } else {
      calc {
        Square(x);
      ==
        (-x) * (-x);
      >  { assert (-x) * (-x) > 0.0 * (-x); }
        0.0;
      }
    }
  }

  lemma {:induction false} ZeroDeviationsMeansConstant(s: seq<real>, mean: real)
    requires SumSquaredDeviations(s, mean) == 0.0
    ensures forall i :: 0 <= i < |s| ==> s[i] == mean
  {
    if |s| > 0 {
      var p, last := s[..|s| - 1], s[|s| - 1];
      assert SumSquaredDeviations(p, mean) >= 0.0;
      assert Square(last - mean) == 0.0;
      if last != mean { SquarePositive(last - mean); }
      ZeroDeviationsMeansConstant(p, mean);
      assert forall i :: 0 <= i < |s| - 1 ==> s[i] == p[i];
    }
  }

  lemma {:induction false} ConstantSum(s: seq<real>, c: real)
    requires forall i :: 0 <= i < |s| ==> s[i] == c
    ensures Sum(s) == |s| as real * c
    ensures SumSquaredDeviations(s, c) == 0.0
  {
    if |s| > 0 {
      ConstantSum(s[..|s| - 1], c);
    }
  }

  /** The sample variance is zero exactly when every value is the same. */
  lemma VarianceZeroIffConstant(values: seq<real>)
    requires |values| >= 1
    ensures NumericStats(values).variance == Some(0.0) <==> forall i :: 0 <= i < |values| ==> values[i] == values[0]
  {
    var r := NumericStats(values);
    var n := |values|;
    if r.variance == Some(0.0) && n >= 2 {
      assert SumSquaredDeviations(values, r.mean.value) == 0.0;
      ZeroDeviationsMeansConstant(values, r.mean.value);
    }
    if forall i :: 0 <= i < n ==> values[i] == values[0] {
      ConstantSum(values, values[0]);
      assert r.mean.value == values[0];
    }
  }

  /** The sample [2, 4, 4, 4, 5, 5, 7, 9]: mean 5, sample variance 32/7 (std 2.138), range 2..9. */
  lemma StatsExample()
    ensures NumericStats([2.0, 4.0, 4.0, 4.0, 5.0, 5.0, 7.0, 9.0])
      == Summary(8, Some(5.0), Some(32.0 / 7.0), Some(2.0), Some(9.0))
  {
    var s := [2.0, 4.0, 4.0, 4.0, 5.0, 5.0, 7.0, 9.0];
    // `Sum` peels the last element, so each prefix and its running total are named once.
    assert s[..7] == [2.0, 4.0, 4.0, 4.0, 5.0, 5.0, 7.0];
    assert s[..7][..6] == [2.0, 4.0, 4.0, 4.0, 5.0, 5.0];
    assert s[..7][..6][..5] == [2.0, 4.0, 4.0, 4.0, 5.0];
    assert s[..7][..6][..5][..4] == [2.0, 4.0, 4.0, 4.0];
    assert s[..7][..6][..5][..4][..3] == [2.0, 4.0, 4.0];
    assert s[..7][..6][..5][..4][..3][..2] == [2.0, 4.0];
    assert s[..7][..6][..5][..4][..3][..2][..1] == [2.0];
    assert Sum([2.0]) == 2.0;
    assert Sum([2.0, 4.0]) == 6.0;
    assert Sum([2.0, 4.0, 4.0]) == 10.0;
    assert Sum([2.0, 4.0, 4.0, 4.0]) == 14.0;
    assert Sum([2.0, 4.0, 4.0, 4.0, 5.0]) == 19.0;
    assert Sum([2.0, 4.0, 4.0, 4.0, 5.0, 5.0]) == 24.0;
    assert Sum([2.0, 4.0, 4.0, 4.0, 5.0, 5.0, 7.0]) == 31.0;
  }

  /** A single value has variance 0 and is its own mean, minimum and maximum; no values give no statistics. */
  lemma StatsEdgeCases(x: real)
    ensures NumericStats([x]) == Summary(1, Some(x), Some(0.0), Some(x), Some(x))
    ensures NumericStats([]) == Summary(0, None, None, None, None)
  {
    assert [x][..0] == [];
  }
}

=== FILE: wrappers.dfy ===
/** Failure-compatible wrappers shared by every stage of the pipeline. */
module Wrappers {

  /** An optional value; the model's stand-in for Python's `None`. */
  datatype Option<+T> = None | Some(value: T)

  /** The outcome of a stage that may raise: a value or the error it raised. */
  datatype Result<+T, +E> = Success(value: T) | Failure(error: E) {

    predicate IsFailure() {
      Failure?
    }

    function PropagateFailure<U>(): Result<U, E>
      requires Failure?
    {
      Failure(error)
    }

    function Extract(): T
      requires Success?
    {
      value
    }
  }

  /** The elements of an optional value as a sequence of length zero or one. */
  function OptionToSeq<T>(o: Option<T>): (s: seq<T>)
  {
    match o
    case None => []
    case Some(v) => [v]
  }
}

/** The errors the two scripts can raise while decoding and analysing a workbook. */
module Errors {

  datatype Error =
    | MissingSheet(path: string)              // the worksheet stream is not in the archive
    | SharedIndexNotInteger(text: string)     // `int(value)` fails on a shared-string cell
    | SharedIndexOutOfRange(index: int)       // `shared_strings[i]` raises IndexError
    | CellIndexOutOfRange(index: int)         // `row_values[idx] = value` raises IndexError
    | EmptyGrid                               // "No rows found in worksheet."
    | ColumnNotFound(name: string)            // an explicit column that is not a header
    | NoEligibleColumn(minCount: int)         // no column reaches the minimum count
    | EmptySample                             // no value yields a leading digit
}
